=== FILE: README.md ===
# TPH route optimizer — a Dafny model

The TPH route optimizer orders the collection points (TPH) of a plantation
block into a visiting route. It uses a greedy nearest-neighbour heuristic.
The route is then written back to the `tph` table, either as an advisory
`display_order` or as a renumbering of the authoritative `nomor`. A small
web API puts this behind API keys, a per-IP rate limiter and input
validation.

This project models the pure logic of that system:

- `wrappers.dfy` — `Option` and `Result`.
- `tph.dfy` — the point record, an abstract distance function, and Python's
  list indexing and `list.pop`.
- `route.dfy` — the greedy tour as pure functions, with its properties.
  The tour is a permutation of the input. It starts at the chosen point.
  Every step takes a nearest remaining point, and ties go to the earliest
  one. The "append the rest" fallback happens only when no remaining
  distance is comparable, so it never happens when every distance is a
  number.
- `route_loop.dfy` — the same algorithm with the source's `while` and `for`
  loops. It is proved to compute exactly the functional tour.
- `route_examples.dfy` — small concrete tours: an outlier visited last, a
  tie going to the earliest point, and the fallback keeping input order.
- `writes.dfy` — the `UPDATE` lists of `update_tph_order` and
  `update_tph_numbers`, and their effect on a table.
- `query.dfy` — the SQL text and parameters built from the filters, a
  decoder that reads the filters back, and the row filter that drops rows
  without coordinates.
- `filters.dfy` — `validate_filters`.
- `auth.dfy` — the API-key table, `verify_api_key`, `check_permission` and
  the permission each endpoint requires.
- `rate_limit.dfy` — the sliding-window limiter as a pure step on integer
  timestamps. It proves that, on a clock that never goes backwards, no
  hour ever holds more than 100 accepted requests from one IP.
- `download.dfy` — the generated KML file name and the download guard.
- `endpoints.dfy` — the bodies of `optimize_route`, `update_display_order`
  and `update_tph_numbering`. They run after the key and rate checks have
  passed, and take the rows returned for the query as input.

Distances are an abstract function from two points to `Km(d)` with
`d >= 0`, or to `Incomparable`. `Incomparable` stands for a value that the
scan's strict `<` never accepts: a NaN, or an exception caught inside the
scan. The haversine function in main.py:46-66 catches its own exceptions
and returns 999999.9, so with real coordinates every distance is a number.
That case is the `Comparable` hypothesis of `Route.ComparableTourIsGreedy`.

Where the code's behaviour differs from what a reader might expect, the
model follows the code:

- A negative `start_index` is not clamped (api.py:221-222). Python
  indexing makes `-1` start at the last point. An index below `-len`
  raises `IndexError`, which the endpoint turns into a 500.
- The row filter tests the truthiness of the DECIMAL coordinates
  (main.py:102). A point at latitude or longitude exactly `0` is dropped,
  like a missing one.

## Model

| member | source | states |
|---|---|---|
| Tph.PyIndex | main.py:132-134 | Python list indexing: an index resolves iff it lies in `-n..n-1`, counting from the end when negative; otherwise `IndexError` |
| Tph.Pop | main.py:133-134 | `list.pop(k)` removes exactly the k-th element: earlier elements keep their index, later ones shift down by one, and the multiset loses one copy of `s[k]` |
| Route.Scan | main.py:141-154 | the scan over the unvisited list ends holding the first nearest index (minimal comparable distance, earliest among equals), or none when no distance was comparable |
| Route.Nearest | main.py:141-154 | the chosen index is the first nearest one, and nothing is chosen exactly when no unvisited point has a comparable distance |
| Route.FirstNearestUnique | main.py:148 | the strict `<` makes the choice deterministic: at most one index is the first nearest one |
| Route.NearestExactly | main.py:141-154 | whenever an index is the first nearest one, it is exactly the index the scan picks |
| Route.Tour | main.py:137-163 | the outer loop keeps the placed prefix, and its result holds exactly the placed points plus the pool (same length, same multiset) |
| Route.NearestNeighbor | main.py:123-165 | an empty input gives an empty route; it fails exactly when the start index is out of Python range; otherwise the route is a permutation of the input that starts at `points[start]` |
| Route.StartAndPool | main.py:132-134 | for an index within the input, the route starts at `points[start]` and the rest of it holds exactly the other input points, with one copy of the start point used up |
| Route.PopInInputOrder | main.py:158 | popping the chosen point keeps the unvisited list in input order |
| Route.InitialPoolInInputOrder | main.py:133-134 | the initial unvisited list is the input minus the start point, in input order |
| Route.TourSuffixFromPool | main.py:155-162 | every point appended after the placed prefix comes from the unvisited list |
| Route.ChosenIsGreedy | main.py:145-158 | a point taken by the scan is no farther from the last placed point than any point placed after it, and a later point at the same distance comes after it in the input |
| Route.FallbackIsStuck | main.py:159-163 | when nothing can be chosen, the route is the placed points followed by the unvisited list as it stands, and none of those has a comparable distance from the last placed point |
| Route.GreedyUntilExtend | main.py:137-158 | a greedy step in front of a greedy tour suffix gives a greedy tour from that step |
| Route.TourGreedy | main.py:137-163 | every tour is greedy at each position up to some point; if it stops early it was stuck there, and the rest is in input order |
| Route.NearestNeighborGreedy | main.py:123-165 | the whole route is greedy, with earliest-wins ties, up to the point where the fallback took over, if it did; after that point the rest follows in input order |
| Route.ComparableNeverStuck | main.py:159-163 | when every distance is a number, the fallback condition never holds |
| Route.ComparableTourIsGreedy | main.py:141-163 | when every distance is a number, every position after the first is a greedy choice |
| RouteLoop.FindNearest | main.py:141-154 | the `for` loop returns -1 iff no distance is comparable, and otherwise the first nearest index, the same one `Route.Nearest` defines |
| RouteLoop.NearestNeighborLoop | main.py:123-165 | the loop version returns exactly the functional route, error case included |
| RouteExamples.OutlierLast | main.py:137-163 | with four points where one is far away, the route visits the far point last |
| RouteExamples.OutlierVisitedLast | main.py:123-165 | the same tour on concrete coordinates with a planar distance |
| RouteExamples.TieGoesToEarliest | main.py:148 | two points at the same distance from the start are visited in input order, whichever order that is |
| RouteExamples.IncomparableKeepsOrder | main.py:159-163 | when no distance is comparable, the route is the start point followed by the rest in input order |
| Writes.EnumerateFrom | main.py:169-171 | the k-th write sets the chosen column to `first + k` for the id of the k-th point |
| Writes.UpdateTphOrder | main.py:167-172 | N writes, the k-th setting `display_order = k + 1` on the k-th point of the route |
| Writes.UpdateTphNumbers | main.py:174-179 | N writes, the k-th setting `nomor = k + 1` on the k-th point of the route |
| Writes.ApplyEnumeration | main.py:169-178 | on a table holding every route point with distinct ids, the k-th point's row ends with the column set to `first + k`; the other column and every other row are unchanged |
| Writes.RenumberEffect | main.py:176-178 | after renumbering, the k-th point has `nomor` k + 1 and its display order is untouched, and other rows are unchanged |
| Writes.DisplayOrderEffect | main.py:169-171 | after the display-order update, the k-th point has display order k + 1 and its `nomor` is untouched, and other rows are unchanged |
| Query.BuildQuery | main.py:72-94 | the text starts with the fixed SELECT and ends with ` ORDER BY nomor ASC`, with one parameter per supplied filter |
| Query.BuildQueryShape | main.py:80-94 | the clauses are appended in the order dept, divisi, blok; dept's parameter is the bare value, divisi's and blok's are `%value%` |
| Query.ReadPresent | main.py:82-92 | a clause followed by its parameter is read back as that filter's value |
| Query.DecodeBuildQuery | main.py:80-94 | text and parameters together determine the filters: decoding a built query gives back every supplied filter, with empty strings counting as absent |
| Query.ToPoint | main.py:106-115 | the point built from a kept row carries its id, number, group keys, label and the values of both coordinates |
| Query.FilterRows | main.py:98-119 | no more points than rows; every row with both coordinates yields its point; every point comes from such a row |
| Query.FilterRowsAppend | main.py:98-119 | filtering distributes over concatenation, so kept rows stay in input order |
| Query.FilterRowsSingle | main.py:101-116 | one row is kept as its point iff its latitude and longitude are both non-null and non-zero |
| Query.FilterRowsKeepsAll | main.py:98-119 | when every row has coordinates, the points are the rows converted one for one, in order |
| FilterValidation.IsAlnum | api.py:87 | `str.isalnum()` on ASCII: holds iff the string has at least one character and every character is an ASCII letter or digit |
| FilterValidation.RemoveAll | api.py:90 | `replace(c, '')` keeps exactly the characters other than `c` |
| FilterValidation.DivisiCheck | api.py:90-91 | the division check as written holds iff the value has at most 10 characters, all letters, digits or `_`, and at least one letter or digit |
| FilterValidation.BlokCheck | api.py:93-94 | the block check as written holds iff the value has at most 15 characters, all letters, digits, `_` or `-`, and at least one letter or digit |
| FilterValidation.ValidateFilters | api.py:85-94 | for each supplied, non-empty filter: dept is rejected iff it is longer than 10 or not alphanumeric; divisi and blok iff they fail their formats; the first failure in the order dept, divisi, blok is reported |
| FilterValidation.AllUnderscoreDivisiRejected | api.py:90-91 | a division made only of underscores is rejected |
| FilterValidation.AcceptedCharacters | api.py:85-94 | every character of an accepted filter is a letter, a digit, `_` or `-` |
| Auth.VerifyApiKey | api.py:42-50 | a key fails with 401 iff it is not in the key table, and otherwise yields its entry |
| Auth.CheckPermission | api.py:52-61 | 401 iff the key is unknown; 403 iff it is known but lacks the permission; success iff its permission list holds it |
| Auth.KeyPermissions | api.py:28-32 | the admin key holds read, write and admin; the operator key holds everything except admin; the read key holds only read |
| Auth.PermissionsNested | api.py:28-32 | for every key, admin implies write and write implies read |
| Auth.Required | api.py:178-389 | only `/auth-info` needs no permission beyond a valid key; renumbering and KML download need admin; the display-order update needs write; the others need read |
| Auth.Authorize | api.py:52-61 | an endpoint's key check passes iff the key is known and holds the permission that endpoint requires |
| Auth.OnlyAdminRenumbers | api.py:313-322 | only the admin key may renumber or download KML; only the admin and operator keys may update the display order |
| RateLimit.Prune | api.py:68-72 | pruning keeps exactly the timestamps `t` with `now - t < 3600` |
| RateLimit.Step | api.py:63-83 | refused iff 100 or more remain after pruning, with the pruned list stored; otherwise the stored list is the pruned list with `now` appended, at most 100 long |
| RateLimit.RateLimitCheck | api.py:63-83 | the caller's IP entry becomes the list one step stores, and no other entry changes; it never grows past 100 |
| RateLimit.Remaining | api.py:183 | the reported quota lies in 0..100: it is 100 minus the count when the count is at most 100, and 0 from 100 on |
| RateLimit.RemainingAfterAllowed | api.py:181-183 | right after an accepted request, the quota is one less than 100 minus the pruned count |
| RateLimit.PruneAppend | api.py:69-72 | pruning distributes over concatenation |
| RateLimit.PruneTwice | api.py:68-72 | pruning at an earlier time and then at a later time is the same as pruning at the later time |
| RateLimit.WindowWithinPrune | api.py:68-75 | any hour ending at or after `now` holds no more timestamps than pruning at `now` keeps |
| RateLimit.StoredIsRecent | api.py:63-83 | on a clock that never goes back, an IP's stored list is its accepted requests of the last hour |
| RateLimit.CountAfterAccept | api.py:74-82 | accepting a request keeps every one-hour window at 100 or fewer |
| RateLimit.SlidingWindow | api.py:63-83 | on a clock that never goes back, no one-hour window ever holds more than 100 accepted requests from one IP |
| Download.CheckFilename | api.py:370-372 | a name is accepted iff it ends with `.kml` and contains neither `/` nor `\` |
| Download.KmlFileName | api.py:249-251 | the generated name starts with `tph_route_`, ends with `.kml`, and has `_` and the timestamp just before the extension |
| Download.NoSeparatorAppend | api.py:371 | joining two separator-free strings gives a separator-free string |
| Download.OrAllNoSeparator | api.py:250 | the filter parts of the file name of validated filters contain no path separator |
| Download.GeneratedNameDownloadable | api.py:249-251 | a name generated from validated filters and a separator-free timestamp passes the download guard |
| Download.TraversalRefused | api.py:370-372 | a name with a `/` in it is refused, whatever it ends with |
| Endpoints.ClampStart | api.py:220-222 | an index at or past the end becomes 0 and anything else is kept, so a non-negative index always ends up valid |
| Endpoints.PrepareTour | api.py:207-225 | 400 iff a filter is invalid; 404 iff the filters are valid and no point has coordinates; 500 iff the start index is below `-len`; otherwise a permutation of the points starting at the clamped start point, greedy with earliest-wins ties up to the fallback point and in input order after it |
| Endpoints.ToEntry | api.py:230-239 | one response entry carries its order number and the point's id, number, group keys and coordinates; a missing label becomes `""` |
| Endpoints.EntriesFrom | api.py:228-239 | the k-th entry is the `TPHResponse` of the k-th point numbered `first + k`: its id, number, label (`""` when missing), dept, divisi and coordinates |
| Endpoints.RouteEntries | api.py:228-239 | one entry per point in route order; the k-th is the full `TPHResponse` of the k-th point with `new_order` k + 1 |
| Endpoints.RoutePreviewsWrites | api.py:228-239 | the response numbers the points exactly as both database updates write them |
| Endpoints.OptimizeRoute | api.py:192-265 | fails exactly as the shared preparation does, or 403 iff KML is requested without the admin permission; otherwise the entries are the prepared nearest-neighbour route numbered 1..N, `total_points` equals the entry count, entries are numbered 1..N from the start point, and a file name is returned iff KML was requested, namely `tph_route_<filters>_<timestamp>.kml` as `Download.KmlFileName` builds it |
| Endpoints.OptimizeRouteIsPermutation | api.py:224-239 | the response entries are a numbered permutation of the points |
| Endpoints.GeneratedKmlDownloadable | api.py:241-251 | a KML file name returned by `optimize_route` passes the download guard |
| Endpoints.UpdateDisplayOrder | api.py:281-311 | succeeds iff the shared preparation does, and then issues exactly the `update_tph_order` writes for the prepared route: one `display_order` write per point, numbered 1..N |
| Endpoints.UpdateNumbering | api.py:327-357 | succeeds iff the shared preparation does, and then issues exactly the `update_tph_numbers` writes for the prepared route: one `nomor` write per point, numbered 1..N |
| Endpoints.EndpointsAgree | api.py:224-239 | for the same request, the preview, the display-order update and the renumbering give every point the same number |

## Left out

- The haversine formula (main.py:46-66) is float trigonometry. Distance is an abstract function, and its symmetry and the 999999.9 sentinel are not modelled.
- db.py is not part of this model: the connection pool and query execution are I/O. The rows a query returns are an input to the model.
- `create_kml` (main.py:181-256) writes a file with float formatting and is not modelled. Only the generated file name is.
- Endpoints.PrepareTour, Endpoints.OptimizeRoute, Endpoints.UpdateDisplayOrder, Endpoints.UpdateNumbering: database and file failures are not modelled, so these members answer `Ok` where the source answers 500:
  - a failing read in `get_tph_data` (main.py:96) ends in 500 (api.py:264-265, 310-311, 356-357);
  - a failing `create_kml` (api.py:252) ends in 500 after the route was built;
  - a failing `UPDATE` inside the write loop (main.py:171, 178) stops the loop and the endpoint answers 500. Autocommit is on (db.py:14), so the earlier writes stay committed. A display-order update or a renumbering can be left half done: the update is not atomic.
- The existence check and file response of `download_kml` (api.py:374-381) need the file system and are not modelled.
- FastAPI wiring, middleware, response models and the order in which dependencies run are not modelled. HTTP errors are modelled as error values with their status codes.
- The `/`, `/auth-info` and `/tph-data` handlers are not modelled as endpoint bodies. The `/` handler needs no key and returns a fixed description. The permission requirements of `/auth-info` and `/tph-data` are in `Auth.Required`, and the quota `/auth-info` reports is `RateLimit.Remaining`.
- `time.time()` and `datetime.now()` are modelled as parameters: timestamps are whole seconds, and the KML timestamp is a string.
- The interactive `main()` (main.py:258-322), printing and logging are not modelled.
- Concurrent requests racing on `request_counts` or on database rows are not modelled.
- Decimal-to-float conversion (main.py:21-22) is not modelled. Coordinates are reals.
- setup_database.py, test_db.py and config.py set up the environment and are not modelled.
- FilterValidation.ValidateFilters: `str.isalnum` is modelled on ASCII letters and digits only. Python also accepts other Unicode letters and digits.
- FilterValidation.IsAlnum: accepts ASCII letters and digits only, while Python's `str.isalnum` is also true for other Unicode letters and digits (`"é".isalnum()` holds in Python and `IsAlnum("é")` does not).
- RateLimit.Step: timestamps are integers, while `time.time()` returns fractional seconds.
- RateLimit.SlidingWindow: the bound of 100 per hour is proved only for a clock that never goes backwards. `time.time()` is a wall clock and can be set back. Then a request can be accepted inside an hour that already holds 100, because pruning at a later time dropped them: 100 requests at 10000, one at 20000, then one at 10001.

=== FILE: auth.dfy ===
/**
 API-key authentication and permission checks (api.py:27-61): a fixed table
 of keys, each with a display name and a list of permissions; an unknown
 key is refused with 401, a known key lacking the required permission with
 403.
 */
module Auth {
  import opened Wrappers

  datatype Permission = Read | Write | Admin

  datatype KeyInfo = KeyInfo(name: string, permissions: seq<Permission>)

  const AdminKey: string := "tph_admin_2024"
  const ReadKey: string := "tph_read_2024"
  const OperatorKey: string := "tph_operator_2024"

  /** `API_KEYS` (api.py:28-32). */
  const ApiKeys: map<string, KeyInfo> := map[
    AdminKey := KeyInfo("TPH Admin", [Read, Write, Admin]),
    ReadKey := KeyInfo("TPH Reader", [Read]),
    OperatorKey := KeyInfo("TPH Operator", [Read, Write])
  ]

  datatype AuthError =
    | Unauthorized               // 401 "Invalid API key"
    | Forbidden(required: Permission)  // 403 "Insufficient permissions"

  function StatusCode(e: AuthError): int {
    match e
    case Unauthorized => 401
    case Forbidden(_) => 403
  }

  /** `verify_api_key`: the key's entry, or 401 when the key is not in the table. */
  function VerifyApiKey(key: string): (r: Result<KeyInfo, AuthError>)
    ensures r.Err? <==> key !in ApiKeys
    ensures r.Err? ==> r.error == Unauthorized
    ensures r.Ok? ==> r.value == ApiKeys[key]
  {
    if key !in ApiKeys then Err(Unauthorized) else Ok(ApiKeys[key])
  }

  /** `check_permission(required)` applied to the caller's key. */
  function CheckPermission(key: string, required: Permission): (r: Result<KeyInfo, AuthError>)
    ensures r == Err(Unauthorized) <==> key !in ApiKeys
    ensures r == Err(Forbidden(required)) <==> key in ApiKeys && required !in ApiKeys[key].permissions
    ensures r.Ok? <==> key in ApiKeys && required in ApiKeys[key].permissions
    ensures r.Ok? ==> r.value == ApiKeys[key]
  {
    match VerifyApiKey(key)
    case Err(e) => Err(e)
    case Ok(info) =>
      if required !in info.permissions then Err(Forbidden(required)) else Ok(info)
  }

  /** What each of the three keys may do. */
  lemma KeyPermissions(p: Permission)
    ensures CheckPermission(AdminKey, p).Ok?
    ensures CheckPermission(OperatorKey, p).Ok? <==> p != Admin
    ensures CheckPermission(ReadKey, p).Ok? <==> p == Read
  {
  }

  /** Permissions are nested: admin implies write, write implies read, for every key. */
  lemma PermissionsNested(key: string)
    ensures CheckPermission(key, Admin).Ok? ==> CheckPermission(key, Write).Ok?
    ensures CheckPermission(key, Write).Ok? ==> CheckPermission(key, Read).Ok?
  {
  }

  /** The endpoints and the permission each one requires, if any beyond a valid key. */
  datatype Endpoint = AuthInfo | OptimizeRoute | UpdateOrder | UpdateNumbers | DownloadKml | TphData

  function Required(e: Endpoint): (r: Option<Permission>)
    ensures r.None? <==> e == AuthInfo
    ensures r == Some(Admin) <==> e == UpdateNumbers || e == DownloadKml
    ensures r == Some(Write) <==> e == UpdateOrder
  {
    match e
    case AuthInfo => None            // api.py:178, any valid key
    case OptimizeRoute => Some(Read) // api.py:200
    case UpdateOrder => Some(Write)  // api.py:274
    case UpdateNumbers => Some(Admin) // api.py:320
    case DownloadKml => Some(Admin)  // api.py:363
    case TphData => Some(Read)       // api.py:389
  }

  /** The key check an endpoint runs before its body. */
  function Authorize(e: Endpoint, key: string): (r: Result<KeyInfo, AuthError>)
    ensures r.Ok? ==> key in ApiKeys
    ensures r.Ok? <==> key in ApiKeys && (Required(e).Some? ==> Required(e).value in ApiKeys[key].permissions)
  {
    match Required(e)
    case None => VerifyApiKey(key)
    case Some(p) => CheckPermission(key, p)
  }

  /** Only the admin key may renumber points or download KML; the read key may not change anything. */
  lemma OnlyAdminRenumbers(key: string)
    ensures Authorize(UpdateNumbers, key).Ok? <==> key == AdminKey
    ensures Authorize(DownloadKml, key).Ok? <==> key == AdminKey
    ensures Authorize(UpdateOrder, key).Ok? <==> key == AdminKey || key == OperatorKey
    ensures !Authorize(UpdateOrder, ReadKey).Ok? && !Authorize(UpdateNumbers, ReadKey).Ok?
  {
  }
}

=== FILE: download.dfy ===
/**
 The KML file names: the one `optimize_route` generates (api.py:249-251)
 and the check `download_kml` applies before serving a file
 (api.py:370-372).
 */
module Download {
  import opened Wrappers
  import opened Query
  import opened FilterValidation

  /** Neither path separator occurs in `s`. */
  predicate NoSeparator(s: string) {
    forall i :: 0 <= i < |s| ==> s[i] != '/' && s[i] != '\\'
  }

  predicate EndsWith(s: string, suffix: string) {
    |suffix| <= |s| && s[|s| - |suffix|..] == suffix
  }

  datatype DownloadError = InvalidFilename  // 400 "Invalid filename"

  /** The traversal guard of `download_kml`: `None` when the name is accepted. */
  function CheckFilename(filename: string): (r: Option<DownloadError>)
    ensures r.None? <==> EndsWith(filename, ".kml") && NoSeparator(filename)
  {
    if !EndsWith(filename, ".kml") || '/' in filename || '\\' in filename then Some(InvalidFilename)
    else None
  }

  /** `x or 'all'`. */
  function OrAll(f: Option<string>): string {
    if Supplied(f) then f.value else "all"
  }

  /** `f"tph_route_{filter_text}_{timestamp}.kml"`. */
  function KmlFileName(f: Filters, timestamp: string): (name: string)
    ensures HasPrefix(name, "tph_route_")
    ensures EndsWith(name, ".kml")
    ensures EndsWith(name[..|name| - 4], "_" + timestamp)
  {
    var body := "tph_route_" + OrAll(f.dept) + "_" + OrAll(f.divisi) + "_" + OrAll(f.blok) + "_" + timestamp;
    assert (body + ".kml")[..|body|] == body;
    body + ".kml"
  }

  lemma NoSeparatorAppend(a: string, b: string)
    requires NoSeparator(a) && NoSeparator(b)
    ensures NoSeparator(a + b)
  {
    forall i | 0 <= i < |a + b|
      ensures (a + b)[i] != '/' && (a + b)[i] != '\\'
    {
      if i < |a| {
        assert (a + b)[i] == a[i];
      } else {
        assert (a + b)[i] == b[i - |a|];
      }
    }
  }

  lemma OrAllNoSeparator(f: Filters)
    requires ValidateFilters(f).None?
    ensures NoSeparator(OrAll(f.dept)) && NoSeparator(OrAll(f.divisi)) && NoSeparator(OrAll(f.blok))
  {
    AcceptedCharacters(f);
  }

  /**
   A name generated from filters that passed validation and a timestamp
   without separators (`strftime("%Y%m%d_%H%M%S")` gives digits and `_`) is
   accepted by the download check.
   */
  lemma GeneratedNameDownloadable(f: Filters, timestamp: string)
    requires ValidateFilters(f).None?
    requires NoSeparator(timestamp)
    ensures CheckFilename(KmlFileName(f, timestamp)).None?
  {
    OrAllNoSeparator(f);
    var us := "_";
    var body := "tph_route_" + OrAll(f.dept) + us + OrAll(f.divisi) + us + OrAll(f.blok) + us + timestamp;
    assert NoSeparator("tph_route_") && NoSeparator(us) && NoSeparator(".kml");
    NoSeparatorAppend("tph_route_", OrAll(f.dept));
    NoSeparatorAppend("tph_route_" + OrAll(f.dept), us);
    NoSeparatorAppend("tph_route_" + OrAll(f.dept) + us, OrAll(f.divisi));
    NoSeparatorAppend("tph_route_" + OrAll(f.dept) + us + OrAll(f.divisi), us);
    NoSeparatorAppend("tph_route_" + OrAll(f.dept) + us + OrAll(f.divisi) + us, OrAll(f.blok));
    NoSeparatorAppend("tph_route_" + OrAll(f.dept) + us + OrAll(f.divisi) + us + OrAll(f.blok), us);
    NoSeparatorAppend("tph_route_" + OrAll(f.dept) + us + OrAll(f.divisi) + us + OrAll(f.blok) + us, timestamp);
    NoSeparatorAppend(body, ".kml");
    assert KmlFileName(f, timestamp) == body + ".kml";
    assert (body + ".kml")[|body + ".kml"| - 4..] == ".kml";
  }

  /** A name with a directory part is refused, whatever it ends with. */
  lemma TraversalRefused(dir: string, name: string)
    ensures CheckFilename(dir + "/" + name).Some?
  {
    assert (dir + "/" + name)[|dir|] == '/';
  }
}

=== FILE: endpoints.dfy ===
/**
 The bodies of the route endpoints of api.py, run after the key and rate
 checks have passed: `optimize_route` (api.py:192-265), `update_display_order`
 (api.py:267-311) and `update_tph_numbering` (api.py:313-357). The rows the
 database returns for the built query are an input.
 */
module Endpoints {
  import opened Wrappers
  import opened Tph
  import opened Route
  import opened Writes
  import opened Query
  import opened FilterValidation
  import opened Download
  import Auth

  datatype ApiError =
    | BadRequest(filter: FilterError)  // 400, invalid filter format
    | NotFound                         // 404, no points for the filters
    | KmlForbidden                     // 403, KML requested without admin permission
    | ServerError                      // 500, any other exception (an out-of-range start index)

  function StatusCode(e: ApiError): int {
    match e
    case BadRequest(_) => 400
    case NotFound => 404
    case KmlForbidden => 403
    case ServerError => 500
  }

  /**
   `if start_index >= len(tph_data): start_index = 0`. Only the upper end is
   clamped: a negative index is passed on as it is.
   */
  function ClampStart(start: int, n: nat): (r: int)
    ensures 0 <= start && n > 0 ==> 0 <= r < n
    ensures start < n ==> r == start
    ensures start >= n ==> r == 0
  {
    if start >= n then 0 else start
  }

  /** The index of the point a tour of `n > 0` points starts at, after clamping and Python indexing. */
  function StartPoint(start: int, n: nat): nat
    requires n > 0
  {
    if start >= n then 0 else if start >= 0 then start else if start >= -(n as int) then n + start else 0
  }

  /**
   Lines shared by the three endpoints: validate the filters, read the
   points, refuse an empty result, clamp the start index and build the tour.
   */
  function PrepareTour(dist: Metric, f: Filters, rows: seq<Row>, start: int): (r: Result<seq<Point>, ApiError>)
    ensures forall e :: r == Err(BadRequest(e)) <==> ValidateFilters(f) == Some(e)
    ensures r == Err(NotFound) <==> ValidateFilters(f).None? && |FilterRows(rows)| == 0
    ensures r == Err(ServerError) <==>
              ValidateFilters(f).None? && |FilterRows(rows)| > 0 && start < -|FilterRows(rows)|
    ensures r.Ok? ==> var points := FilterRows(rows);
              && |points| > 0
              && |r.value| == |points|
              && multiset(r.value) == multiset(points)
              && r.value[0] == points[StartPoint(start, |points|)]
    ensures r.Ok? ==> exists k :: 1 <= k <= |r.value| && GreedyUntil(dist, FilterRows(rows), r.value, 1, k)
  {
    match ValidateFilters(f)
    case Some(e) => Err(BadRequest(e))
    case None =>
      var points := FilterRows(rows);
      if |points| == 0 then Err(NotFound)
      else
        match NearestNeighbor(dist, points, ClampStart(start, |points|))
        case Err(_) => Err(ServerError)
        case Ok(tour) =>
          assert exists k :: 1 <= k <= |tour| && GreedyUntil(dist, points, tour, 1, k) by {
            NearestNeighborGreedy(dist, points, ClampStart(start, |points|));
          }
          Ok(tour)
  }

  /** One element of the response's `route` (`TPHResponse`, api.py:119-127). */
  datatype RouteEntry = RouteEntry(
    newOrder: int,
    id: int,
    nomor: int,
    tph: string,
    dept: string,
    divisi: string,
    lat: real,
    lon: real)

  /** `TPHResponse(...)` for one point; a missing label becomes `""`. */
  function ToEntry(newOrder: int, p: Point): (e: RouteEntry)
    ensures e.newOrder == newOrder && e.id == p.id && e.nomor == p.nomor
    ensures e.dept == p.dept && e.divisi == p.divisi && e.lat == p.lat && e.lon == p.lng
    ensures p.kode.Some? ==> e.tph == p.kode.value
    ensures p.kode.None? ==> e.tph == ""
  {
    RouteEntry(newOrder, p.id, p.nomor, if p.kode.Some? then p.kode.value else "", p.dept, p.divisi, p.lat, p.lng)
  }

  /** The response entries numbered from `first` in tour order (api.py:228-239). */
  function EntriesFrom(tour: seq<Point>, first: int): (r: seq<RouteEntry>)
    ensures |r| == |tour|
    ensures forall k :: 0 <= k < |r| ==> r[k].newOrder == first + k && r[k].id == tour[k].id && r[k].nomor == tour[k].nomor
    ensures forall k :: 0 <= k < |r| ==> r[k] == ToEntry(first + k, tour[k])
    decreases |tour|
  {
    if |tour| == 0 then []
    else [ToEntry(first, tour[0])] + EntriesFrom(tour[1..], first + 1)
  }

  function RouteEntries(tour: seq<Point>): (r: seq<RouteEntry>)
    ensures |r| == |tour|
    ensures forall k :: 0 <= k < |r| ==> r[k].newOrder == k + 1 && r[k].id == tour[k].id
    ensures forall k :: 0 <= k < |r| ==> r[k] == ToEntry(k + 1, tour[k])
  {
    EntriesFrom(tour, 1)
  }

  /** The response preview numbers the points exactly as `update_tph_order` and `update_tph_numbers` write them. */
  lemma RoutePreviewsWrites(tour: seq<Point>)
    ensures |RouteEntries(tour)| == |UpdateTphOrder(tour)| == |UpdateTphNumbers(tour)|
    ensures forall k :: 0 <= k < |tour| ==>
              && RouteEntries(tour)[k].newOrder == UpdateTphOrder(tour)[k].value == UpdateTphNumbers(tour)[k].value
              && RouteEntries(tour)[k].id == UpdateTphOrder(tour)[k].id == UpdateTphNumbers(tour)[k].id
  {
  }

  datatype RouteResponse = RouteResponse(totalPoints: nat, route: seq<RouteEntry>, kmlFile: Option<string>)

  /**
   `optimize_route`: the tour as numbered entries; with `generate_kml` the
   caller must hold the admin permission, and the response names the file
   generated for the filters at `timestamp`.
   */
  function OptimizeRoute(dist: Metric, permissions: seq<Auth.Permission>, f: Filters, rows: seq<Row>,
                         start: int, generateKml: bool, timestamp: string): (r: Result<RouteResponse, ApiError>)
    ensures r.Err? && r.error != KmlForbidden ==> PrepareTour(dist, f, rows, start) == Err(r.error)
    ensures r == Err(KmlForbidden) <==> PrepareTour(dist, f, rows, start).Ok? && generateKml && Auth.Admin !in permissions
    ensures r.Ok? ==> (PrepareTour(dist, f, rows, start).Ok?
                       && r.value.route == RouteEntries(PrepareTour(dist, f, rows, start).value))
    ensures r.Ok? ==> var points := FilterRows(rows);
              && r.value.totalPoints == |r.value.route| == |points| > 0
              && (forall k :: 0 <= k < |r.value.route| ==> r.value.route[k].newOrder == k + 1)
              && r.value.route[0].id == points[StartPoint(start, |points|)].id
              && (r.value.kmlFile.Some? <==> generateKml)
    ensures r.Ok? && generateKml ==> r.value.kmlFile == Some(KmlFileName(f, timestamp))
  {
    match PrepareTour(dist, f, rows, start)
    case Err(e) => Err(e)
    case Ok(tour) =>
      if generateKml && Auth.Admin !in permissions then Err(KmlForbidden)
      else
        var kml := if generateKml then Some(KmlFileName(f, timestamp)) else None;
        Ok(RouteResponse(|tour|, RouteEntries(tour), kml))
  }

  /** The route entries are the numbered tour: same points, each once, as many as the input. */
  lemma OptimizeRouteIsPermutation(dist: Metric, permissions: seq<Auth.Permission>, f: Filters, rows: seq<Row>,
                                   start: int, generateKml: bool, timestamp: string)
    requires OptimizeRoute(dist, permissions, f, rows, start, generateKml, timestamp).Ok?
    ensures var r := OptimizeRoute(dist, permissions, f, rows, start, generateKml, timestamp).value;
            exists tour :: multiset(tour) == multiset(FilterRows(rows)) && r.route == RouteEntries(tour)
  {
    var tour := PrepareTour(dist, f, rows, start).value;
    assert OptimizeRoute(dist, permissions, f, rows, start, generateKml, timestamp).value.route == RouteEntries(tour);
  }

  /** A generated KML file name passes the download guard. */
  lemma GeneratedKmlDownloadable(dist: Metric, permissions: seq<Auth.Permission>, f: Filters, rows: seq<Row>,
                                 start: int, timestamp: string)
    requires NoSeparator(timestamp)
    requires OptimizeRoute(dist, permissions, f, rows, start, true, timestamp).Ok?
    ensures var r := OptimizeRoute(dist, permissions, f, rows, start, true, timestamp).value;
            r.kmlFile.Some? && CheckFilename(r.kmlFile.value).None?
  {
    GeneratedNameDownloadable(f, timestamp);
  }

  /** `update_display_order`: the display-order writes; `updated_count` is their number. */
  function UpdateDisplayOrder(dist: Metric, f: Filters, rows: seq<Row>, start: int): (r: Result<seq<Update>, ApiError>)
    ensures r.Err? ==> PrepareTour(dist, f, rows, start) == Err(r.error)
    ensures r.Ok? <==> PrepareTour(dist, f, rows, start).Ok?
    ensures r.Ok? ==> r.value == UpdateTphOrder(PrepareTour(dist, f, rows, start).value)
    ensures r.Ok? ==>
              && |r.value| == |FilterRows(rows)| > 0
              && (forall k :: 0 <= k < |r.value| ==> r.value[k].column == DisplayOrder && r.value[k].value == k + 1)
  {
    match PrepareTour(dist, f, rows, start)
    case Err(e) => Err(e)
    case Ok(tour) => Ok(UpdateTphOrder(tour))
  }

  /** `update_tph_numbering`: the renumbering writes; `updated_count` is their number. */
  function UpdateNumbering(dist: Metric, f: Filters, rows: seq<Row>, start: int): (r: Result<seq<Update>, ApiError>)
    ensures r.Err? ==> PrepareTour(dist, f, rows, start) == Err(r.error)
    ensures r.Ok? <==> PrepareTour(dist, f, rows, start).Ok?
    ensures r.Ok? ==> r.value == UpdateTphNumbers(PrepareTour(dist, f, rows, start).value)
    ensures r.Ok? ==>
              && |r.value| == |FilterRows(rows)| > 0
              && (forall k :: 0 <= k < |r.value| ==> r.value[k].column == Nomor && r.value[k].value == k + 1)
  {
    match PrepareTour(dist, f, rows, start)
    case Err(e) => Err(e)
    case Ok(tour) => Ok(UpdateTphNumbers(tour))
  }

  /**
   For the same filters, rows and start index, the preview, the display-order
   update and the renumbering agree: the k-th route entry, display-order
   write and number write all concern the same point and carry k + 1.
   */
  lemma EndpointsAgree(dist: Metric, permissions: seq<Auth.Permission>, f: Filters, rows: seq<Row>,
                       start: int, timestamp: string)
    requires OptimizeRoute(dist, permissions, f, rows, start, false, timestamp).Ok?
    ensures UpdateDisplayOrder(dist, f, rows, start).Ok? && UpdateNumbering(dist, f, rows, start).Ok?
    ensures var route := OptimizeRoute(dist, permissions, f, rows, start, false, timestamp).value.route;
            var order := UpdateDisplayOrder(dist, f, rows, start).value;
            var numbers := UpdateNumbering(dist, f, rows, start).value;
            && |route| == |order| == |numbers|
            && forall k :: 0 <= k < |route| ==>
                 route[k].id == order[k].id == numbers[k].id && route[k].newOrder == order[k].value == numbers[k].value
  {
    var tour := PrepareTour(dist, f, rows, start).value;
    RoutePreviewsWrites(tour);
  }
}

=== FILE: filters.dfy ===
/**
 `validate_filters` (api.py:85-94): each supplied filter must be short and
 made of letters and digits, with `_` also allowed in a division and `_`
 and `-` in a block code; the first bad filter, in the order dept, divisi,
 blok, is the one reported.
 */
module FilterValidation {
  import opened Wrappers
  import opened Query

  predicate IsAlnumChar(c: char) {
    ('a' <= c <= 'z') || ('A' <= c <= 'Z') || ('0' <= c <= '9')
  }

  /** `str.isalnum()`: non-empty, and every character a letter or a digit. */
  predicate IsAlnum(s: string): (b: bool)
    ensures b <==> (exists x :: x in s) && (forall x :: x in s ==> IsAlnumChar(x))
  {
    && |s| > 0
    && (assert s[0] in s; forall i :: 0 <= i < |s| ==> IsAlnumChar(s[i]))
  }

  /** `s.replace(c, '')`. */
  function RemoveAll(s: string, c: char): (r: string)
    ensures |r| <= |s|
    ensures forall x :: x in r <==> x in s && x != c
    decreases |s|
  {
    if |s| == 0 then ""
    else (if s[0] == c then "" else [s[0]]) + RemoveAll(s[1..], c)
  }

  const MaxDept := 10
  const MaxDivisi := 10
  const MaxBlok := 15

  /** The checks as the source writes them. */
  predicate DeptPasses(d: string) {
    !(|d| > MaxDept || !IsAlnum(d))
  }

  predicate DivisiPasses(v: string) {
    !(|v| > MaxDivisi || !IsAlnum(RemoveAll(v, '_')))
  }

  predicate BlokPasses(b: string) {
    !(|b| > MaxBlok || !IsAlnum(RemoveAll(RemoveAll(b, '_'), '-')))
  }

  /** The formats in terms of the characters allowed. */
  ghost predicate DeptFormat(d: string) {
    0 < |d| <= MaxDept && forall i :: 0 <= i < |d| ==> IsAlnumChar(d[i])
  }

  ghost predicate DivisiFormat(v: string) {
    && |v| <= MaxDivisi
    && (forall i :: 0 <= i < |v| ==> IsAlnumChar(v[i]) || v[i] == '_')
    && (exists i :: 0 <= i < |v| && IsAlnumChar(v[i]))
  }

  ghost predicate BlokFormat(b: string) {
    && |b| <= MaxBlok
    && (forall i :: 0 <= i < |b| ==> IsAlnumChar(b[i]) || b[i] == '_' || b[i] == '-')
    && (exists i :: 0 <= i < |b| && IsAlnumChar(b[i]))
  }

  lemma DivisiCheck(v: string)
    ensures DivisiPasses(v) <==> DivisiFormat(v)
  {
    var r := RemoveAll(v, '_');
    if IsAlnum(r) {
      var x :| x in r;
      var i :| 0 <= i < |v| && v[i] == x;
      assert IsAlnumChar(v[i]);
    }
    if DivisiFormat(v) {
      var i :| 0 <= i < |v| && IsAlnumChar(v[i]);
      assert v[i] in r;
    }
  }

  lemma BlokCheck(b: string)
    ensures BlokPasses(b) <==> BlokFormat(b)
  {
    var r := RemoveAll(RemoveAll(b, '_'), '-');
    if IsAlnum(r) {
      var x :| x in r;
      var i :| 0 <= i < |b| && b[i] == x;
      assert IsAlnumChar(b[i]);
    }
    if BlokFormat(b) {
      var i :| 0 <= i < |b| && IsAlnumChar(b[i]);
      assert b[i] in r;
    }
  }

  datatype FilterError = InvalidDept | InvalidDivisi | InvalidBlok

  /** `validate_filters`: `None` when the filters pass, otherwise the first failing one. */
  function ValidateFilters(f: Filters): (r: Option<FilterError>)
    ensures r == Some(InvalidDept) <==> Supplied(f.dept) && !DeptFormat(f.dept.value)
    ensures r == Some(InvalidDivisi) <==>
              && (Supplied(f.dept) ==> DeptFormat(f.dept.value))
              && Supplied(f.divisi) && !DivisiFormat(f.divisi.value)
    ensures r == Some(InvalidBlok) <==>
              && (Supplied(f.dept) ==> DeptFormat(f.dept.value))
              && (Supplied(f.divisi) ==> DivisiFormat(f.divisi.value))
              && Supplied(f.blok) && !BlokFormat(f.blok.value)
    ensures r.None? <==>
              && (Supplied(f.dept) ==> DeptFormat(f.dept.value))
              && (Supplied(f.divisi) ==> DivisiFormat(f.divisi.value))
              && (Supplied(f.blok) ==> BlokFormat(f.blok.value))
  {
    assert Supplied(f.divisi) ==> (DivisiPasses(f.divisi.value) <==> DivisiFormat(f.divisi.value)) by {
      if Supplied(f.divisi) {
        DivisiCheck(f.divisi.value);
      }
    }
    assert Supplied(f.blok) ==> (BlokPasses(f.blok.value) <==> BlokFormat(f.blok.value)) by {
      if Supplied(f.blok) {
        BlokCheck(f.blok.value);
      }
    }
    if Supplied(f.dept) && !DeptPasses(f.dept.value) then Some(InvalidDept)
    else if Supplied(f.divisi) && !DivisiPasses(f.divisi.value) then Some(InvalidDivisi)
    else if Supplied(f.blok) && !BlokPasses(f.blok.value) then Some(InvalidBlok)
    else None
  }

  /** A division made only of underscores is rejected: removing them leaves nothing alphanumeric. */
  lemma AllUnderscoreDivisiRejected()
    ensures ValidateFilters(Filters(None, Some("___"), None)) == Some(InvalidDivisi)
  {
    assert !IsAlnumChar('_');
  }

  /** Every character of an accepted filter is a letter, a digit, `_` or `-`. */
  lemma AcceptedCharacters(f: Filters)
    requires ValidateFilters(f).None?
    ensures Supplied(f.dept) ==> forall i :: 0 <= i < |f.dept.value| ==> IsAlnumChar(f.dept.value[i])
    ensures Supplied(f.divisi) ==> forall i :: 0 <= i < |f.divisi.value| ==> IsAlnumChar(f.divisi.value[i]) || f.divisi.value[i] == '_'
    ensures Supplied(f.blok) ==> forall i :: 0 <= i < |f.blok.value| ==>
              IsAlnumChar(f.blok.value[i]) || f.blok.value[i] == '_' || f.blok.value[i] == '-'
  {
  }
}

=== FILE: query.dfy ===
/**
 The two pure fragments of `get_tph_data` (main.py:68-121): the SQL text
 and parameter list built from the optional filters, and the filter that
 turns result rows into points, dropping rows without coordinates. The
 database round trip between them is not modelled: the rows are an input.
 */
module Query {
  import opened Wrappers
  import opened Tph

  /** The three optional group filters of a request. */
  datatype Filters = Filters(dept: Option<string>, divisi: Option<string>, blok: Option<string>)

  /** Python truthiness of an optional string: present and non-empty. */
  predicate Supplied(f: Option<string>) {
    f.Some? && |f.value| > 0
  }

  /** The filters as the query sees them: an empty string is the same as no filter. */
  function Effective(f: Filters): Filters {
    Filters(
      if Supplied(f.dept) then f.dept else None,
      if Supplied(f.divisi) then f.divisi else None,
      if Supplied(f.blok) then f.blok else None)
  }

  const BaseQuery: string := "\n        SELECT id, nomor, dept_abbr, divisi_abbr, blok_kode, \n               lat, lon as lng, kode_tph \n        FROM tph \n        WHERE status = 1\n        AND lat IS NOT NULL AND lat != ''\n        AND lon IS NOT NULL AND lon != ''\n    "
  const DeptClause: string := " AND dept_abbr = %s"
  const DivisiClause: string := " AND divisi_abbr LIKE %s"
  const BlokClause: string := " AND blok_kode LIKE %s"
  const OrderClause: string := " ORDER BY nomor ASC"

  /** A parameterised query: SQL text with `%s` placeholders and the values bound to them. */
  datatype SqlQuery = SqlQuery(text: string, params: seq<string>)

  /** The LIKE pattern `f"%{v}%"`: match `v` anywhere. */
  function Contains(v: string): string {
    "%" + v + "%"
  }

  function AddClause(q: SqlQuery, clause: string, param: string): SqlQuery {
    SqlQuery(q.text + clause, q.params + [param])
  }

  /** The query text and parameters built by main.py:72-94. */
  function BuildQuery(f: Filters): (q: SqlQuery)
    ensures |BaseQuery| + |OrderClause| <= |q.text|
    ensures q.text[..|BaseQuery|] == BaseQuery
    ensures q.text[|q.text| - |OrderClause|..] == OrderClause
    ensures |q.params| == (if Supplied(f.dept) then 1 else 0) + (if Supplied(f.divisi) then 1 else 0)
                          + (if Supplied(f.blok) then 1 else 0)
  {
    var q0 := SqlQuery(BaseQuery, []);
    var q1 := if Supplied(f.dept) then AddClause(q0, DeptClause, f.dept.value) else q0;
    var q2 := if Supplied(f.divisi) then AddClause(q1, DivisiClause, Contains(f.divisi.value)) else q1;
    var q3 := if Supplied(f.blok) then AddClause(q2, BlokClause, Contains(f.blok.value)) else q2;
    SqlQuery(q3.text + OrderClause, q3.params)
  }

  // ---------------------------------------------------------------------
  // Reading the filters back from a query.

  predicate HasPrefix(s: string, p: string) {
    |p| <= |s| && s[..|p|] == p
  }

  /** A LIKE pattern of the form `%v%`, and the `v` inside it. */
  predicate IsContains(p: string) {
    |p| >= 2 && p[0] == '%' && p[|p| - 1] == '%'
  }

  function Inner(p: string): string
    requires IsContains(p)
  {
    p[1..|p| - 1]
  }

  /** What is left of the clause text and parameters after reading one optional clause. */
  datatype Parsed = Parsed(value: Option<string>, rest: string, params: seq<string>)

  function ReadClause(s: string, params: seq<string>, clause: string, like: bool): Parsed {
    if HasPrefix(s, clause) && |params| > 0 && (like ==> IsContains(params[0])) then
      Parsed(Some(if like then Inner(params[0]) else params[0]), s[|clause|..], params[1..])
    else Parsed(None, s, params)
  }

  /**
   Recovers the filters from a query: the clause text between the fixed
   prefix and the ORDER BY suffix names which filters were applied, in the
   order dept, divisi, blok, and the parameters supply their values.
   */
  function DecodeQuery(q: SqlQuery): Option<Filters> {
    if |q.text| < |BaseQuery| + |OrderClause| || q.text[..|BaseQuery|] != BaseQuery
       || q.text[|q.text| - |OrderClause|..] != OrderClause then None
    else
      var clauses := q.text[|BaseQuery|..|q.text| - |OrderClause|];
      var d := ReadClause(clauses, q.params, DeptClause, false);
      var v := ReadClause(d.rest, d.params, DivisiClause, true);
      var b := ReadClause(v.rest, v.params, BlokClause, true);
      if b.rest == [] && b.params == [] then Some(Filters(d.value, v.value, b.value)) else None
  }

  lemma ClausesDiffer()
    ensures !HasPrefix(DivisiClause, DeptClause) && !HasPrefix(BlokClause, DeptClause)
    ensures !HasPrefix(BlokClause, DivisiClause)
  {
    assert DivisiClause[6] != DeptClause[6];
    assert BlokClause[5] != DeptClause[5];
    assert BlokClause[5] != DivisiClause[5];
  }

  lemma PrefixOfAppend(a: string, b: string, p: string)
    requires !HasPrefix(a, p) && |p| <= |a|
    ensures !HasPrefix(a + b, p)
  {
    assert (a + b)[..|p|] == a[..|p|];
  }

  lemma ReadPresent(clause: string, tail: string, params: seq<string>, v: string, like: bool)
    requires like ==> IsContains(v)
    ensures ReadClause(clause + tail, [v] + params, clause, like)
            == Parsed(Some(if like then Inner(v) else v), tail, params)
  {
    assert (clause + tail)[..|clause|] == clause;
    assert (clause + tail)[|clause|..] == tail;
    assert ([v] + params)[1..] == params;
  }

  lemma InnerContains(v: string)
    ensures IsContains(Contains(v)) && Inner(Contains(v)) == v
  {
  }

  function DeptText(f: Filters): string { if Supplied(f.dept) then DeptClause else "" }
  function DivisiText(f: Filters): string { if Supplied(f.divisi) then DivisiClause else "" }
  function BlokText(f: Filters): string { if Supplied(f.blok) then BlokClause else "" }
  function DeptParam(f: Filters): seq<string> { if Supplied(f.dept) then [f.dept.value] else [] }
  function DivisiParam(f: Filters): seq<string> { if Supplied(f.divisi) then [Contains(f.divisi.value)] else [] }
  function BlokParam(f: Filters): seq<string> { if Supplied(f.blok) then [Contains(f.blok.value)] else [] }

  lemma BuildQueryShape(f: Filters)
    ensures BuildQuery(f).text == BaseQuery + (DeptText(f) + DivisiText(f) + BlokText(f)) + OrderClause
    ensures BuildQuery(f).params == DeptParam(f) + DivisiParam(f) + BlokParam(f)
  {
    var b := BaseQuery;
    var d, v, k := DeptText(f), DivisiText(f), BlokText(f);
    var q0 := SqlQuery(b, []);
    var q1 := if Supplied(f.dept) then AddClause(q0, DeptClause, f.dept.value) else q0;
    assert q1.text == b + d;
    var q2 := if Supplied(f.divisi) then AddClause(q1, DivisiClause, Contains(f.divisi.value)) else q1;
    assert q2.text == b + d + v;
    var q3 := if Supplied(f.blok) then AddClause(q2, BlokClause, Contains(f.blok.value)) else q2;
    assert q3.text == b + d + v + k;
    Regroup(b, d, v, k);
    assert q3.params == DeptParam(f) + DivisiParam(f) + BlokParam(f);
  }

  // String identities in lemmas of their own, proved where the long query
  // literals are not in scope.
  lemma Regroup(a: string, b: string, c: string, d: string)
    ensures a + b + c + d == a + (b + c + d)
  {
  }

  lemma EmptyLeft(s: string)
    ensures "" + s == s
  {
  }

  lemma MiddleOf(a: string, m: string, o: string)
    ensures |a| + |o| <= |a + m + o|
    ensures (a + m + o)[..|a|] == a
    ensures (a + m + o)[|a + m + o| - |o|..] == o
    ensures (a + m + o)[|a|..|a + m + o| - |o|] == m
  {
  }

  lemma ReadBlok(f: Filters)
    ensures ReadClause(BlokText(f), BlokParam(f), BlokClause, true) == Parsed(Effective(f).blok, [], [])
  {
    if Supplied(f.blok) {
      InnerContains(f.blok.value);
      ReadPresent(BlokClause, [], [], Contains(f.blok.value), true);
      assert BlokClause + [] == BlokClause;
    }
  }

  lemma ReadDivisi(f: Filters)
    ensures ReadClause(DivisiText(f) + BlokText(f), DivisiParam(f) + BlokParam(f), DivisiClause, true)
            == Parsed(Effective(f).divisi, BlokText(f), BlokParam(f))
  {
    ClausesDiffer();
    if Supplied(f.divisi) {
      InnerContains(f.divisi.value);
      ReadPresent(DivisiClause, BlokText(f), BlokParam(f), Contains(f.divisi.value), true);
    } else {
      assert DivisiText(f) + BlokText(f) == BlokText(f);
    }
  }

  lemma ReadDept(f: Filters)
    ensures ReadClause(DeptText(f) + DivisiText(f) + BlokText(f), DeptParam(f) + DivisiParam(f) + BlokParam(f), DeptClause, false)
            == Parsed(Effective(f).dept, DivisiText(f) + BlokText(f), DivisiParam(f) + BlokParam(f))
  {
    var tail := DivisiText(f) + BlokText(f);
    var ps := DivisiParam(f) + BlokParam(f);
    assert DeptText(f) + DivisiText(f) + BlokText(f) == DeptText(f) + tail;
    assert DeptParam(f) + DivisiParam(f) + BlokParam(f) == DeptParam(f) + ps;
    ClausesDiffer();
    if Supplied(f.dept) {
      ReadPresent(DeptClause, tail, ps, f.dept.value, false);
    } else {
      assert DeptText(f) + tail == tail;
      if Supplied(f.divisi) {
        PrefixOfAppend(DivisiClause, BlokText(f), DeptClause);
      } else {
        EmptyLeft(BlokText(f));
      }
    }
  }

  /**
   Building a query and reading it back gives the effective filters: the
   text and the parameters together determine exactly which filters were
   applied and with what values.
   */
  lemma DecodeBuildQuery(f: Filters)
    ensures DecodeQuery(BuildQuery(f)) == Some(Effective(f))
  {
    BuildQueryShape(f);
    MiddleOf(BaseQuery, DeptText(f) + DivisiText(f) + BlokText(f), OrderClause);
    ReadDept(f);
    ReadDivisi(f);
    ReadBlok(f);
  }

  // ---------------------------------------------------------------------
  // Turning result rows into points.

  /** A result row; the coordinates are nullable DECIMAL columns. */
  datatype Row = Row(
    id: int,
    nomor: int,
    dept: string,
    divisi: string,
    blok: string,
    lat: Option<real>,
    lng: Option<real>,
    kode: Option<string>)

  /** Python truthiness of a DECIMAL value: not NULL and not zero. */
  predicate Truthy(c: Option<real>) {
    c.Some? && c.value != 0.0
  }

  predicate HasCoordinates(row: Row) {
    Truthy(row.lat) && Truthy(row.lng)
  }

  /** The `TPH(...)` built from a kept row (main.py:106-115). */
  function ToPoint(row: Row): (p: Point)
    requires HasCoordinates(row)
    ensures p.id == row.id && p.nomor == row.nomor && p.kode == row.kode
    ensures p.dept == row.dept && p.divisi == row.divisi && p.blok == row.blok
    ensures Some(p.lat) == row.lat && Some(p.lng) == row.lng
  {
    Point(row.id, row.nomor, row.dept, row.divisi, row.blok, row.lat.value, row.lng.value, row.kode)
  }

  /** The loop of main.py:98-119: rows with a falsy latitude or longitude are skipped. */
  function FilterRows(rows: seq<Row>): (ps: seq<Point>)
    ensures |ps| <= |rows|
    ensures forall i :: 0 <= i < |rows| && HasCoordinates(rows[i]) ==> ToPoint(rows[i]) in ps
    ensures forall p :: p in ps ==> exists i :: 0 <= i < |rows| && HasCoordinates(rows[i]) && ToPoint(rows[i]) == p
    decreases |rows|
  {
    if |rows| == 0 then []
    else
      (if HasCoordinates(rows[0]) then [ToPoint(rows[0])] else []) + FilterRows(rows[1..])
  }

  /** Filtering distributes over concatenation, so kept rows stay in input order. */
  lemma {:induction false} FilterRowsAppend(a: seq<Row>, b: seq<Row>)
    ensures FilterRows(a + b) == FilterRows(a) + FilterRows(b)
    decreases |a|
  {
    if |a| == 0 {
      assert a + b == b;
    } else {
      assert (a + b)[0] == a[0];
      assert (a + b)[1..] == a[1..] + b;
      FilterRowsAppend(a[1..], b);
    }
  }

  /** A single row is kept, as its point, exactly when it has both coordinates. */
  lemma FilterRowsSingle(r: Row)
    ensures FilterRows([r]) == if HasCoordinates(r) then [ToPoint(r)] else []
  {
    assert [r][1..] == [];
  }

  /** When every row has coordinates nothing is dropped and the order is kept. */
  lemma {:induction false} FilterRowsKeepsAll(rows: seq<Row>)
    requires forall i :: 0 <= i < |rows| ==> HasCoordinates(rows[i])
    ensures |FilterRows(rows)| == |rows|
    ensures forall i :: 0 <= i < |rows| ==> FilterRows(rows)[i] == ToPoint(rows[i])
    decreases |rows|
  {
    if |rows| > 0 {
      FilterRowsKeepsAll(rows[1..]);
    }
  }
}

=== FILE: rate_limit.dfy ===
/**
 The per-IP sliding-window rate limiter of api.py:34-83 as a pure step on a
 list of request timestamps (whole seconds), and the remaining-quota report
 of api.py:183. The main result: on a clock that never goes backwards, no
 window of one hour ever holds more than 100 accepted requests.
 */
module RateLimit {

  /** `RATE_LIMIT_REQUESTS` and `RATE_LIMIT_WINDOW` (api.py:36-37). */
  const MaxRequests: nat := 100
  const Window: int := 3600

  /** The timestamps still inside the window ending at `now`, in their stored order. */
  function Prune(ts: seq<int>, now: int): (r: seq<int>)
    ensures |r| <= |ts|
    ensures forall t :: t in r <==> t in ts && now - t < Window
    decreases |ts|
  {
    if |ts| == 0 then []
    else (if now - ts[0] < Window then [ts[0]] else []) + Prune(ts[1..], now)
  }

  /** Whether the request is let through, and the list stored for its IP afterwards. */
  datatype Decision = Decision(allowed: bool, stored: seq<int>)

  /**
   `rate_limit_check` for one IP: the stored list is pruned to the window;
   with 100 or more left the request is refused with 429 (the pruned list is
   still stored), otherwise `now` is appended.
   */
  function Step(ts: seq<int>, now: int): (d: Decision)
    ensures d.allowed <==> |Prune(ts, now)| < MaxRequests
    ensures forall t :: t in d.stored ==> now - t < Window
    ensures d.allowed ==> d.stored == Prune(ts, now) + [now] && |d.stored| <= MaxRequests
    ensures !d.allowed ==> d.stored == Prune(ts, now)
    ensures |ts| <= MaxRequests ==> |d.stored| <= MaxRequests
  {
    var recent := Prune(ts, now);
    if |recent| >= MaxRequests then Decision(false, recent)
    else Decision(true, recent + [now])
  }

  /** `request_counts`: a `defaultdict(list)` from client IP to timestamps. */
  type Counts = map<string, seq<int>>

  function History(c: Counts, ip: string): seq<int> {
    if ip in c then c[ip] else []
  }

  /** The check for one request from `ip`: only that IP's entry changes. */
  function RateLimitCheck(c: Counts, ip: string, now: int): (r: (bool, Counts))
    ensures r.0 <==> |Prune(History(c, ip), now)| < MaxRequests
    ensures r.1.Keys == c.Keys + {ip}
    ensures r.1[ip] == Step(History(c, ip), now).stored
    ensures forall other :: other in c && other != ip ==> r.1[other] == c[other]
    ensures |History(c, ip)| <= MaxRequests ==> |History(r.1, ip)| <= MaxRequests
  {
    var d := Step(History(c, ip), now);
    (d.allowed, c[ip := d.stored])
  }

  /** `max(0, RATE_LIMIT_REQUESTS - len(...))`. */
  function Remaining(ts: seq<int>): (r: int)
    ensures 0 <= r <= MaxRequests
    ensures |ts| <= MaxRequests ==> r + |ts| == MaxRequests
    ensures |ts| >= MaxRequests ==> r == 0
  {
    if MaxRequests - |ts| > 0 then MaxRequests - |ts| else 0
  }

  /** Right after an accepted request the reported quota has gone down by one from the pruned count. */
  lemma RemainingAfterAllowed(ts: seq<int>, now: int)
    requires Step(ts, now).allowed
    ensures Remaining(Step(ts, now).stored) == MaxRequests - |Prune(ts, now)| - 1
    ensures Remaining(Step(ts, now).stored) < MaxRequests
  {
  }

  // ---------------------------------------------------------------------
  // The sliding-window guarantee.

  lemma {:induction false} PruneAppend(a: seq<int>, b: seq<int>, now: int)
    ensures Prune(a + b, now) == Prune(a, now) + Prune(b, now)
    decreases |a|
  {
    if |a| == 0 {
      assert a + b == b;
    } else {
      var head := if now - a[0] < Window then [a[0]] else [];
      assert (a + b)[0] == a[0];
      assert (a + b)[1..] == a[1..] + b;
      assert Prune(a + b, now) == head + Prune(a[1..] + b, now);
      PruneAppend(a[1..], b, now);
      assert Prune(a, now) == head + Prune(a[1..], now);
    }
  }

  /** Pruning at an earlier time and then at a later one is pruning at the later one. */
  lemma {:induction false} PruneTwice(ts: seq<int>, earlier: int, later: int)
    requires earlier <= later
    ensures Prune(Prune(ts, earlier), later) == Prune(ts, later)
    decreases |ts|
  {
    if |ts| > 0 {
      PruneTwice(ts[1..], earlier, later);
      var head := if earlier - ts[0] < Window then [ts[0]] else [];
      PruneAppend(head, Prune(ts[1..], earlier), later);
    }
  }

  /** The number of timestamps in the hour that ends at `x`: `x - Window < t <= x`. */
  function CountInWindow(ts: seq<int>, x: int): nat
    decreases |ts|
  {
    if |ts| == 0 then 0
    else CountInWindow(ts[..|ts| - 1], x) + (if x - Window < ts[|ts| - 1] <= x then 1 else 0)
  }

  /** An hour ending no earlier than `now` holds no more timestamps than the pruning at `now` keeps. */
  lemma {:induction false} WindowWithinPrune(ts: seq<int>, x: int, now: int)
    requires now <= x
    ensures CountInWindow(ts, x) <= |Prune(ts, now)|
    decreases |ts|
  {
    if |ts| > 0 {
      var init := ts[..|ts| - 1];
      var last := ts[|ts| - 1];
      WindowWithinPrune(init, x, now);
      assert ts == init + [last];
      PruneAppend(init, [last], now);
      assert Prune([last], now) == if now - last < Window then [last] else [];
    }
  }

  /** The state of one IP after a sequence of requests: its stored list and the times accepted. */
  datatype Trace = Trace(stored: seq<int>, accepted: seq<int>)

  function Run(times: seq<int>): Trace
    decreases |times|
  {
    if |times| == 0 then Trace([], [])
    else
      var prev := Run(times[..|times| - 1]);
      var now := times[|times| - 1];
      var d := Step(prev.stored, now);
      Trace(d.stored, if d.allowed then prev.accepted + [now] else prev.accepted)
  }

  ghost predicate NonDecreasing(times: seq<int>) {
    forall i, j :: 0 <= i < j < |times| ==> times[i] <= times[j]
  }

  /**
   On a clock that never goes backwards the stored list is always the
   accepted requests of the last hour.
   */
  lemma {:induction false} StoredIsRecent(times: seq<int>)
    requires NonDecreasing(times)
    ensures |times| > 0 ==> Run(times).stored == Prune(Run(times).accepted, times[|times| - 1])
    decreases |times|
  {
    if |times| > 0 {
      var init := times[..|times| - 1];
      var now := times[|times| - 1];
      assert NonDecreasing(init);
      StoredIsRecent(init);
      var prev := Run(init);
      var a := prev.accepted;
      assert Prune(prev.stored, now) == Prune(a, now) by {
        if |init| > 0 {
          PruneTwice(a, init[|init| - 1], now);
        }
      }
      PruneAppend(a, [now], now);
      assert Prune([now], now) == [now];
    }
  }

  /** Accepting a request at `now` keeps every hour within the limit. */
  lemma CountAfterAccept(a: seq<int>, now: int, x: int)
    requires |Prune(a, now)| < MaxRequests
    requires CountInWindow(a, x) <= MaxRequests
    ensures CountInWindow(a + [now], x) <= MaxRequests
  {
    var a' := a + [now];
    assert a'[..|a'| - 1] == a;
    if now <= x {
      WindowWithinPrune(a, x, now);
    }
  }

  /**
   On a clock that never goes backwards every hour holds at most 100
   accepted requests.
   */
  lemma {:induction false} SlidingWindow(times: seq<int>)
    requires NonDecreasing(times)
    ensures forall x :: CountInWindow(Run(times).accepted, x) <= MaxRequests
    decreases |times|
  {
    if |times| > 0 {
      var init := times[..|times| - 1];
      var now := times[|times| - 1];
      assert NonDecreasing(init);
      SlidingWindow(init);
      StoredIsRecent(init);
      var prev := Run(init);
      var a := prev.accepted;
      assert Prune(prev.stored, now) == Prune(a, now) by {
        if |init| > 0 {
          PruneTwice(a, init[|init| - 1], now);
        }
      }
      forall x
        ensures CountInWindow(Run(times).accepted, x) <= MaxRequests
      {
        if Step(prev.stored, now).allowed {
          CountAfterAccept(a, now, x);
        }
      }
    }
  }
}

=== FILE: route.dfy ===
/**
 Greedy nearest-neighbour tour construction (main.py:123-165), as pure
 functions over immutable sequences, with the properties the tour keeps:
 it is a permutation of the input, it starts at the chosen point, every step
 takes a nearest remaining point with ties going to the earliest one, and the
 fallback that appends the rest happens only when no remaining distance is
 comparable.
 */
module Route {
  import opened Wrappers
  import opened Tph

  /** `k` is a first nearest index of `pool` from `current` among `pool[..n]`. */
  ghost predicate FirstNearestUpTo(dist: Metric, current: Point, pool: seq<Point>, k: nat, n: nat)
    requires n <= |pool|
  {
    && k < n
    && dist(current, pool[k]).Km?
    && (forall j :: 0 <= j < n && dist(current, pool[j]).Km? ==>
          dist(current, pool[k]).km <= dist(current, pool[j]).km)
    && (forall j :: 0 <= j < k && dist(current, pool[j]).Km? ==>
          dist(current, pool[k]).km < dist(current, pool[j]).km)
  }

  /** `k` is the index the scan must pick: nearest, and earliest among equally near ones. */
  ghost predicate FirstNearest(dist: Metric, current: Point, pool: seq<Point>, k: nat) {
    FirstNearestUpTo(dist, current, pool, k, |pool|)
  }

  /** No point of `pool[..n]` has a comparable distance from `current`. */
  ghost predicate NoneComparableUpTo(dist: Metric, current: Point, pool: seq<Point>, n: nat)
    requires n <= |pool|
  {
    forall j :: 0 <= j < n ==> dist(current, pool[j]).Incomparable?
  }

  /**
   The scan of main.py:141-154 after it has looked at `pool[..i]`: `best` is
   the index it currently holds (`nearest_idx`, `None` standing for -1 with
   `min_distance` still infinite). A candidate replaces it only when its
   distance is comparable and strictly smaller.
   */
  function Scan(dist: Metric, current: Point, pool: seq<Point>, i: nat, best: Option<nat>): (r: Option<nat>)
    requires i <= |pool|
    requires best.Some? ==> FirstNearestUpTo(dist, current, pool, best.value, i)
    requires best.None? ==> NoneComparableUpTo(dist, current, pool, i)
    ensures r.Some? ==> FirstNearest(dist, current, pool, r.value)
    ensures r.None? ==> NoneComparableUpTo(dist, current, pool, |pool|)
    decreases |pool| - i
  {
    if i == |pool| then best
    else
      var d := dist(current, pool[i]);
      var closer := d.Km? && (best.None? || d.km < dist(current, pool[best.value]).km);
      Scan(dist, current, pool, i + 1, if closer then Some(i) else best)
  }

  /** The index of the nearest unvisited point, or `None` when nothing could be chosen. */
  function Nearest(dist: Metric, current: Point, pool: seq<Point>): (r: Option<nat>)
    ensures r.Some? ==> FirstNearest(dist, current, pool, r.value)
    ensures r.None? <==> NoneComparableUpTo(dist, current, pool, |pool|)
  {
    Scan(dist, current, pool, 0, None)
  }

  /** The tie-break is deterministic: at most one index is a first nearest one. */
  lemma FirstNearestUnique(dist: Metric, current: Point, pool: seq<Point>, k1: nat, k2: nat)
    requires FirstNearest(dist, current, pool, k1)
    requires FirstNearest(dist, current, pool, k2)
    ensures k1 == k2
  {
  }

  /** The converse of `Nearest`'s contract: a first nearest index is exactly what the scan picks. */
  lemma NearestExactly(dist: Metric, current: Point, pool: seq<Point>, k: nat)
    requires k < |pool| && FirstNearest(dist, current, pool, k)
    ensures Nearest(dist, current, pool) == Some(k)
  {
    assert !NoneComparableUpTo(dist, current, pool, |pool|);
    FirstNearestUnique(dist, current, pool, Nearest(dist, current, pool).value, k);
  }

  /**
   The outer loop of main.py:137-163: `placed` is `ordered_points`, `pool` is
   `unvisited`. Each round moves the nearest unvisited point to the end of
   the tour; when none can be chosen the rest is appended as it stands.
   */
  function Tour(dist: Metric, placed: seq<Point>, pool: seq<Point>): (r: seq<Point>)
    requires |placed| > 0
    ensures |r| == |placed| + |pool|
    ensures r[..|placed|] == placed
    ensures multiset(r) == multiset(placed) + multiset(pool)
    decreases |pool|
  {
    if |pool| == 0 then placed
    else
      match Nearest(dist, placed[|placed| - 1], pool)
      case None => placed + pool
      case Some(k) => Tour(dist, placed + [pool[k]], Pop(pool, k))
  }

  datatype RouteError = IndexError

  /**
   `nearest_neighbor_algorithm(points, start_index)`: an empty input gives an
   empty tour; otherwise the tour starts at `points[start_index]` (Python
   indexing, so a negative index counts from the end) and the rest is built
   greedily from the input with that point popped.
   */
  function NearestNeighbor(dist: Metric, points: seq<Point>, start: int): (r: Result<seq<Point>, RouteError>)
    ensures |points| == 0 ==> r == Ok([])
    ensures r.Err? <==> |points| > 0 && !(-|points| <= start < |points|)
    ensures r.Ok? ==> |r.value| == |points| && multiset(r.value) == multiset(points)
    ensures r.Ok? && 0 <= start < |points| ==> r.value[0] == points[start]
    ensures r.Ok? && -|points| <= start < 0 ==> r.value[0] == points[|points| + start]
  {
    if |points| == 0 then Ok([])
    else
      match PyIndex(start, |points|)
      case None => Err(IndexError)
      case Some(s) => Ok(Tour(dist, [points[s]], Pop(points, s)))
  }

  /**
   After the start point, the route holds exactly the other input points:
   the start point's one copy is used up at the front.
   */
  lemma StartAndPool(dist: Metric, points: seq<Point>, s: nat)
    requires s < |points|
    ensures NearestNeighbor(dist, points, s).Ok?
    ensures var out := NearestNeighbor(dist, points, s).value;
            && out[0] == points[s]
            && multiset(out[1..]) == multiset(points) - multiset{points[s]}
  {
    var out := NearestNeighbor(dist, points, s).value;
    assert out == [out[0]] + out[1..];
    assert multiset(out) == multiset{out[0]} + multiset(out[1..]);
  }

  // ---------------------------------------------------------------------
  // The greedy-choice property of the whole tour.

  /** `x` occurs strictly before `y` in `points`. */
  ghost predicate Precedes(points: seq<Point>, x: Point, y: Point) {
    exists a, b :: 0 <= a < b < |points| && points[a] == x && points[b] == y
  }

  /** The pool keeps the input's relative order. */
  ghost predicate InInputOrder(points: seq<Point>, pool: seq<Point>) {
    forall a, b :: 0 <= a < b < |pool| ==> Precedes(points, pool[a], pool[b])
  }

  /**
   Position `i` of `out` was a greedy choice: from `out[i - 1]`, `out[i]` has
   a comparable distance no larger than that of any later point, and a later
   point at the same distance comes after it in the input.
   */
  ghost predicate GreedyAt(dist: Metric, points: seq<Point>, out: seq<Point>, i: nat)
    requires 1 <= i < |out|
  {
    && dist(out[i - 1], out[i]).Km?
    && forall j :: i < j < |out| && dist(out[i - 1], out[j]).Km? ==>
         || dist(out[i - 1], out[i]).km < dist(out[i - 1], out[j]).km
         || (dist(out[i - 1], out[i]).km == dist(out[i - 1], out[j]).km && Precedes(points, out[i], out[j]))
  }

  /** From `out[f - 1]` no point of `out[f..]` has a comparable distance. */
  ghost predicate StuckAt(dist: Metric, out: seq<Point>, f: nat)
    requires 1 <= f <= |out|
  {
    forall j :: f <= j < |out| ==> dist(out[f - 1], out[j]).Incomparable?
  }

  /**
   The tour is greedy up to `f`; if it stops early at `f` it is because it
   was stuck there, and the rest follows in input order.
   */
  ghost predicate GreedyUntil(dist: Metric, points: seq<Point>, out: seq<Point>, from: nat, f: nat)
    requires 1 <= from <= f <= |out|
  {
    && (forall i :: from <= i < f ==> GreedyAt(dist, points, out, i))
    && (f < |out| ==> StuckAt(dist, out, f) && InInputOrder(points, out[f..]))
  }

  lemma PopInInputOrder(points: seq<Point>, pool: seq<Point>, k: nat)
    requires k < |pool|
    requires InInputOrder(points, pool)
    ensures InInputOrder(points, Pop(pool, k))
  {
    var p := Pop(pool, k);
    forall a, b | 0 <= a < b < |p|
      ensures Precedes(points, p[a], p[b])
    {
      var a' := if a < k then a else a + 1;
      var b' := if b < k then b else b + 1;
      assert p[a] == pool[a'] && p[b] == pool[b'];
    }
  }

  lemma InitialPoolInInputOrder(points: seq<Point>, s: nat)
    requires s < |points|
    ensures InInputOrder(points, Pop(points, s))
  {
    var p := Pop(points, s);
    forall a, b | 0 <= a < b < |p|
      ensures Precedes(points, p[a], p[b])
    {
      var a' := if a < s then a else a + 1;
      var b' := if b < s then b else b + 1;
      assert points[a'] == p[a] && points[b'] == p[b];
    }
  }

  /** Every point after the placed prefix of a tour comes from the pool. */
  lemma TourSuffixFromPool(dist: Metric, placed: seq<Point>, pool: seq<Point>, j: nat)
    requires |placed| > 0
    requires |placed| <= j < |placed| + |pool|
    ensures j < |Tour(dist, placed, pool)| && Tour(dist, placed, pool)[j] in pool
  {
    var out := Tour(dist, placed, pool);
    var n := |placed|;
    var rest := out[n..];
    assert out == placed + rest by {
      assert out == out[..n] + rest;
    }
    assert multiset(out) == multiset(placed) + multiset(rest);
    assert multiset(rest) == multiset(pool) by {
      forall x
        ensures multiset(rest)[x] == multiset(pool)[x]
      {
        assert multiset(out)[x] == multiset(placed)[x] + multiset(rest)[x];
        assert multiset(out)[x] == multiset(placed)[x] + multiset(pool)[x];
      }
    }
    assert out[j] == rest[j - n];
    assert rest[j - n] in multiset(rest);
  }

  /** One greedy round: the chosen point is first nearest among what remains. */
  lemma ChosenIsGreedy(dist: Metric, points: seq<Point>, placed: seq<Point>, pool: seq<Point>, k: nat)
    requires |placed| > 0
    requires InInputOrder(points, pool)
    requires k < |pool| && FirstNearest(dist, placed[|placed| - 1], pool, k)
    ensures |placed| < |Tour(dist, placed + [pool[k]], Pop(pool, k))|
    ensures GreedyAt(dist, points, Tour(dist, placed + [pool[k]], Pop(pool, k)), |placed|)
  {
    var placed' := placed + [pool[k]];
    var pool' := Pop(pool, k);
    var out := Tour(dist, placed', pool');
    var n := |placed|;
    var cur := placed[n - 1];
    assert out[..n + 1] == placed';
    assert out[n - 1] == placed'[n - 1] == cur;
    assert out[n] == placed'[n] == pool[k];
    forall j | n < j < |out| && dist(out[n - 1], out[j]).Km?
      ensures || dist(out[n - 1], out[n]).km < dist(out[n - 1], out[j]).km
              || (dist(out[n - 1], out[n]).km == dist(out[n - 1], out[j]).km && Precedes(points, out[n], out[j]))
    {
      TourSuffixFromPool(dist, placed', pool', j);
      var m :| 0 <= m < |pool'| && pool'[m] == out[j];
      var m' := if m < k then m else m + 1;
      assert pool[m'] == out[j];
      if m' < k {
        assert dist(cur, pool[k]).km < dist(cur, pool[m']).km;
      } else {
        assert Precedes(points, pool[k], pool[m']);
      }
    }
  }

  /** When nothing can be chosen, the tour is stuck right after the placed prefix. */
  lemma FallbackIsStuck(dist: Metric, placed: seq<Point>, pool: seq<Point>)
    requires |placed| > 0 && |pool| > 0
    requires Nearest(dist, placed[|placed| - 1], pool).None?
    ensures Tour(dist, placed, pool) == placed + pool
    ensures StuckAt(dist, Tour(dist, placed, pool), |placed|)
  {
    var out := Tour(dist, placed, pool);
    var n := |placed|;
    assert out == placed + pool;
    forall j | n <= j < |out|
      ensures dist(out[n - 1], out[j]).Incomparable?
    {
      assert out[n - 1] == placed[n - 1];
      assert out[j] == pool[j - n];
    }
  }

  lemma GreedyUntilExtend(dist: Metric, points: seq<Point>, out: seq<Point>, n: nat, f: nat)
    requires 1 <= n < f <= |out|
    requires GreedyAt(dist, points, out, n)
    requires GreedyUntil(dist, points, out, n + 1, f)
    ensures GreedyUntil(dist, points, out, n, f)
  {
  }

  lemma {:induction false} TourGreedy(dist: Metric, points: seq<Point>, placed: seq<Point>, pool: seq<Point>)
    requires |placed| > 0
    requires InInputOrder(points, pool)
    ensures exists f :: |placed| <= f <= |Tour(dist, placed, pool)|
                        && GreedyUntil(dist, points, Tour(dist, placed, pool), |placed|, f)
    decreases |pool|
  {
    var out := Tour(dist, placed, pool);
    var n := |placed|;
    if |pool| == 0 {
      assert GreedyUntil(dist, points, out, n, n);
    } else {
      var nearest := Nearest(dist, placed[n - 1], pool);
      if nearest.None? {
        FallbackIsStuck(dist, placed, pool);
        assert out[n..] == pool;
        assert GreedyUntil(dist, points, out, n, n);
      } else {
        var k := nearest.value;
        var placed' := placed + [pool[k]];
        var pool' := Pop(pool, k);
        assert out == Tour(dist, placed', pool');
        PopInInputOrder(points, pool, k);
        TourGreedy(dist, points, placed', pool');
        var f :| n + 1 <= f <= |out| && GreedyUntil(dist, points, out, n + 1, f);
        ChosenIsGreedy(dist, points, placed, pool, k);
        GreedyUntilExtend(dist, points, out, n, f);
      }
    }
  }

  /**
   The tour of a non-empty input is greedy at every position up to some `f`;
   if `f` is not the end, no remaining point was comparable from `out[f - 1]`
   and the fallback appended the rest in input order.
   */
  lemma NearestNeighborGreedy(dist: Metric, points: seq<Point>, start: int)
    requires NearestNeighbor(dist, points, start).Ok? && |points| > 0
    ensures var out := NearestNeighbor(dist, points, start).value;
            exists f :: 1 <= f <= |out| && GreedyUntil(dist, points, out, 1, f)
  {
    var s := PyIndex(start, |points|).value;
    InitialPoolInInputOrder(points, s);
    TourGreedy(dist, points, [points[s]], Pop(points, s));
  }

  /**
   With every distance comparable the fallback never happens: every position
   after the first is a greedy choice.
   */
  lemma ComparableTourIsGreedy(dist: Metric, points: seq<Point>, start: int)
    requires Comparable(dist)
    requires NearestNeighbor(dist, points, start).Ok?
    ensures var out := NearestNeighbor(dist, points, start).value;
            forall i :: 1 <= i < |out| ==> GreedyAt(dist, points, out, i)
  {
    var out := NearestNeighbor(dist, points, start).value;
    if |points| > 0 {
      NearestNeighborGreedy(dist, points, start);
      forall f | 1 <= f < |out|
        ensures !StuckAt(dist, out, f)
      {
        ComparableNeverStuck(dist, out, f);
      }
      var f :| 1 <= f <= |out| && GreedyUntil(dist, points, out, 1, f);
    }
  }

  lemma ComparableNeverStuck(dist: Metric, out: seq<Point>, f: nat)
    requires Comparable(dist)
    requires 1 <= f < |out|
    ensures !StuckAt(dist, out, f)
  {
    assert dist(out[f - 1], out[f]).Km?;
  }
}

=== FILE: route_examples.dfy ===
/**
 Concrete tours under a planar stand-in for the haversine distance
 (the sum of the coordinate differences, which orders these points the
 same way).
 */
module RouteExamples {
  import opened Wrappers
  import opened Tph
  import opened Route

  function Abs(x: real): NonNegReal {
    if x < 0.0 then -x else x
  }

  function Planar(a: Point, b: Point): Dist {
    Km(Abs(a.lat - b.lat) + Abs(a.lng - b.lng))
  }

  function At(id: int, lat: real, lng: real): Point {
    Point(id, id, "", "", "", lat, lng, None)
  }

  lemma OnlyOne(dist: Metric, current: Point, x: Point)
    requires dist(current, x).Km?
    ensures Nearest(dist, current, [x]) == Some(0)
  {
    NearestExactly(dist, current, [x], 0);
  }

  lemma FirstOfTwo(dist: Metric, current: Point, x: Point, y: Point)
    requires dist(current, x).Km? && dist(current, y).Km?
    requires dist(current, x).km <= dist(current, y).km
    ensures Nearest(dist, current, [x, y]) == Some(0)
  {
    var pool := [x, y];
    forall j | 0 <= j < 2
      ensures dist(current, pool[j]).Km? && dist(current, pool[0]).km <= dist(current, pool[j]).km
    {
      if j == 1 {
        assert pool[j] == y;
      }
    }
    NearestExactly(dist, current, pool, 0);
  }

  lemma SecondOfTwo(dist: Metric, current: Point, x: Point, y: Point)
    requires dist(current, x).Km? && dist(current, y).Km?
    requires dist(current, y).km < dist(current, x).km
    ensures Nearest(dist, current, [x, y]) == Some(1)
  {
    var pool := [x, y];
    forall j | 0 <= j < 2
      ensures dist(current, pool[j]).Km? && dist(current, pool[1]).km <= dist(current, pool[j]).km
    {
      if j == 0 {
        assert pool[j] == x;
      }
    }
    NearestExactly(dist, current, pool, 1);
  }

  lemma FirstOfThree(dist: Metric, current: Point, x: Point, y: Point, z: Point)
    requires dist(current, x).Km? && dist(current, y).Km? && dist(current, z).Km?
    requires dist(current, x).km <= dist(current, y).km && dist(current, x).km <= dist(current, z).km
    ensures Nearest(dist, current, [x, y, z]) == Some(0)
  {
    var pool := [x, y, z];
    forall j | 0 <= j < 3
      ensures dist(current, pool[j]).Km? && dist(current, pool[0]).km <= dist(current, pool[j]).km
    {
      if j == 1 {
        assert pool[j] == y;
      } else if j == 2 {
        assert pool[j] == z;
      }
    }
    NearestExactly(dist, current, pool, 0);
  }

  /** One greedy round of the tour, taking `pool[k]`. */
  lemma TourTakes(dist: Metric, placed: seq<Point>, pool: seq<Point>, k: nat, placed': seq<Point>, pool': seq<Point>)
    requires |placed| > 0 && k < |pool|
    requires Nearest(dist, placed[|placed| - 1], pool) == Some(k)
    requires placed' == placed + [pool[k]] && pool' == Pop(pool, k)
    ensures Tour(dist, placed, pool) == Tour(dist, placed', pool')
  {
  }

  lemma TakeOnly(dist: Metric, placed: seq<Point>, x: Point)
    requires |placed| > 0 && dist(placed[|placed| - 1], x).Km?
    ensures Tour(dist, placed, [x]) == placed + [x]
  {
    OnlyOne(dist, placed[|placed| - 1], x);
    TourTakes(dist, placed, [x], 0, placed + [x], []);
  }

  lemma TakeFirstOfTwo(dist: Metric, placed: seq<Point>, x: Point, y: Point)
    requires |placed| > 0
    requires dist(placed[|placed| - 1], x).Km? && dist(placed[|placed| - 1], y).Km?
    requires dist(placed[|placed| - 1], x).km <= dist(placed[|placed| - 1], y).km
    ensures Tour(dist, placed, [x, y]) == Tour(dist, placed + [x], [y])
  {
    FirstOfTwo(dist, placed[|placed| - 1], x, y);
    assert Pop([x, y], 0) == [y];
    TourTakes(dist, placed, [x, y], 0, placed + [x], [y]);
  }

  lemma TakeSecondOfTwo(dist: Metric, placed: seq<Point>, x: Point, y: Point)
    requires |placed| > 0
    requires dist(placed[|placed| - 1], x).Km? && dist(placed[|placed| - 1], y).Km?
    requires dist(placed[|placed| - 1], y).km < dist(placed[|placed| - 1], x).km
    ensures Tour(dist, placed, [x, y]) == Tour(dist, placed + [y], [x])
  {
    SecondOfTwo(dist, placed[|placed| - 1], x, y);
    assert Pop([x, y], 1) == [x];
    TourTakes(dist, placed, [x, y], 1, placed + [y], [x]);
  }

  lemma TakeFirstOfThree(dist: Metric, placed: seq<Point>, x: Point, y: Point, z: Point)
    requires |placed| > 0
    requires dist(placed[|placed| - 1], x).Km? && dist(placed[|placed| - 1], y).Km? && dist(placed[|placed| - 1], z).Km?
    requires dist(placed[|placed| - 1], x).km <= dist(placed[|placed| - 1], y).km
    requires dist(placed[|placed| - 1], x).km <= dist(placed[|placed| - 1], z).km
    ensures Tour(dist, placed, [x, y, z]) == Tour(dist, placed + [x], [y, z])
  {
    FirstOfThree(dist, placed[|placed| - 1], x, y, z);
    assert Pop([x, y, z], 0) == [y, z];
    TourTakes(dist, placed, [x, y, z], 0, placed + [x], [y, z]);
  }

  // Sequence identities in lemmas of their own, proved where the definitions
  // of `Tour` and `Nearest` are not in scope.
  lemma Snoc1<T>(a: T, b: T)
    ensures [a] + [b] == [a, b]
  {
  }

  lemma Snoc2<T>(a: T, b: T, c: T)
    ensures [a] + [b] + [c] == [a, b, c]
  {
  }

  lemma Snoc3<T>(a: T, b: T, c: T, d: T)
    ensures [a, b] + [c] + [d] == [a, b, c, d]
  {
  }

  lemma StartAtFirst(dist: Metric, points: seq<Point>)
    requires |points| > 0
    ensures NearestNeighbor(dist, points, 0) == Ok(Tour(dist, [points[0]], points[1..]))
  {
    assert Pop(points, 0) == points[1..];
  }

  lemma OutlierLastFrom(dist: Metric, p1: Point, p2: Point, p3: Point, p4: Point)
    requires dist(p1, p2) == Km(1.0) && dist(p1, p3) == Km(20.0) && dist(p1, p4) == Km(2.0)
    requires dist(p2, p3) == Km(19.0) && dist(p2, p4) == Km(1.0) && dist(p4, p3) == Km(18.0)
    ensures Tour(dist, [p1], [p2, p3, p4]) == [p1, p2, p4, p3]
  {
    TakeFirstOfThree(dist, [p1], p2, p3, p4);
    Snoc1(p1, p2);
    OutlierLastTail(dist, p1, p2, p3, p4);
  }

  lemma OutlierLastTail(dist: Metric, p1: Point, p2: Point, p3: Point, p4: Point)
    requires dist(p2, p3) == Km(19.0) && dist(p2, p4) == Km(1.0) && dist(p4, p3) == Km(18.0)
    ensures Tour(dist, [p1, p2], [p3, p4]) == [p1, p2, p4, p3]
  {
    TakeSecondOfTwo(dist, [p1, p2], p3, p4);
    TakeOnly(dist, [p1, p2] + [p4], p3);
    Snoc3(p1, p2, p4, p3);
  }

  /**
   Four points where the third is a far outlier: from the first, the tour
   visits the second, then the fourth, and the outlier last. The distances
   are those of points 1 (0,0), 2 (0,1), 3 (10,10), 4 (0,2) under `Planar`.
   */
  lemma OutlierLast(dist: Metric, p1: Point, p2: Point, p3: Point, p4: Point)
    requires dist(p1, p2) == Km(1.0) && dist(p1, p3) == Km(20.0) && dist(p1, p4) == Km(2.0)
    requires dist(p2, p3) == Km(19.0) && dist(p2, p4) == Km(1.0) && dist(p4, p3) == Km(18.0)
    ensures NearestNeighbor(dist, [p1, p2, p3, p4], 0) == Ok([p1, p2, p4, p3])
  {
    StartAtFirst(dist, [p1, p2, p3, p4]);
    assert [p1, p2, p3, p4][1..] == [p2, p3, p4];
    OutlierLastFrom(dist, p1, p2, p3, p4);
  }

  lemma OutlierVisitedLast()
    ensures NearestNeighbor(Planar, [At(1, 0.0, 0.0), At(2, 0.0, 1.0), At(3, 10.0, 10.0), At(4, 0.0, 2.0)], 0)
            == Ok([At(1, 0.0, 0.0), At(2, 0.0, 1.0), At(4, 0.0, 2.0), At(3, 10.0, 10.0)])
  {
    OutlierLast(Planar, At(1, 0.0, 0.0), At(2, 0.0, 1.0), At(3, 10.0, 10.0), At(4, 0.0, 2.0));
  }

  lemma TieTourFrom(dist: Metric, p1: Point, p2: Point, p3: Point)
    requires dist(p1, p2).Km? && dist(p1, p3).Km? && dist(p1, p2).km <= dist(p1, p3).km
    requires dist(p2, p3).Km?
    ensures Tour(dist, [p1], [p2, p3]) == [p1, p2, p3]
  {
    TakeFirstOfTwo(dist, [p1], p2, p3);
    TakeOnly(dist, [p1] + [p2], p3);
    Snoc2(p1, p2, p3);
  }

  lemma TieTour(dist: Metric, p1: Point, p2: Point, p3: Point)
    requires dist(p1, p2).Km? && dist(p1, p3).Km? && dist(p1, p2).km <= dist(p1, p3).km
    requires dist(p2, p3).Km?
    ensures NearestNeighbor(dist, [p1, p2, p3], 0) == Ok([p1, p2, p3])
  {
    StartAtFirst(dist, [p1, p2, p3]);
    assert [p1, p2, p3][1..] == [p2, p3];
    TieTourFrom(dist, p1, p2, p3);
  }

  /**
   Two points at the same distance from the start: whichever of them comes
   first in the input is visited first.
   */
  lemma TieGoesToEarliest(dist: Metric, p1: Point, p2: Point, p3: Point)
    requires dist(p1, p2).Km? && dist(p1, p3).Km? && dist(p1, p2) == dist(p1, p3)
    requires dist(p2, p3).Km? && dist(p3, p2).Km?
    ensures NearestNeighbor(dist, [p1, p2, p3], 0) == Ok([p1, p2, p3])
    ensures NearestNeighbor(dist, [p1, p3, p2], 0) == Ok([p1, p3, p2])
  {
    TieTour(dist, p1, p2, p3);
    TieTour(dist, p1, p3, p2);
  }

  /** With no comparable distance the fallback keeps the input order after the start point. */
  lemma IncomparableKeepsOrder()
    ensures NearestNeighbor((a: Point, b: Point) => Incomparable, [At(1, 0.0, 0.0), At(2, 5.0, 5.0), At(3, 1.0, 1.0)], 1)
            == Ok([At(2, 5.0, 5.0), At(1, 0.0, 0.0), At(3, 1.0, 1.0)])
  {
    var p1, p2, p3 := At(1, 0.0, 0.0), At(2, 5.0, 5.0), At(3, 1.0, 1.0);
    assert Pop([p1, p2, p3], 1) == [p1, p3];
    assert [p2] + [p1, p3] == [p2, p1, p3];
  }
}

=== FILE: route_loop.dfy ===
/**
 The loops of main.py:123-165 written as the source writes them, with a
 `while` over the unvisited list and a scan over its elements, shown to
 compute exactly the functional tour of module Route.
 */
module RouteLoop {
  import opened Wrappers
  import opened Tph
  import opened Route

  /**
   The scan of main.py:141-154. `nearestIdx` is -1 until a candidate is
   taken; while it is -1, `min_distance` is infinite, so the first
   comparable distance always wins.
   */
  method FindNearest(dist: Metric, current: Point, unvisited: seq<Point>) returns (nearestIdx: int)
    ensures -1 <= nearestIdx < |unvisited|
    ensures nearestIdx >= 0 ==> FirstNearest(dist, current, unvisited, nearestIdx)
    ensures nearestIdx < 0 <==> NoneComparableUpTo(dist, current, unvisited, |unvisited|)
    ensures nearestIdx < 0 <==> Nearest(dist, current, unvisited).None?
    ensures nearestIdx >= 0 ==> Nearest(dist, current, unvisited) == Some(nearestIdx)
  {
    nearestIdx := -1;
    var minDistance: NonNegReal := 0.0;
    var i := 0;
    while i < |unvisited|
      invariant 0 <= i <= |unvisited|
      invariant -1 <= nearestIdx < i
      invariant nearestIdx >= 0 ==> dist(current, unvisited[nearestIdx]) == Km(minDistance)
      invariant nearestIdx >= 0 ==> FirstNearestUpTo(dist, current, unvisited, nearestIdx, i)
      invariant nearestIdx < 0 ==> NoneComparableUpTo(dist, current, unvisited, i)
      invariant Scan(dist, current, unvisited, i, if nearestIdx < 0 then None else Some(nearestIdx))
                == Nearest(dist, current, unvisited)
    {
      var d := dist(current, unvisited[i]);
      if d.Km? && (nearestIdx < 0 || d.km < minDistance) {
        minDistance := d.km;
        nearestIdx := i;
      }
      i := i + 1;
    }
  }

  /** `nearest_neighbor_algorithm` with its loops; it returns what Route.NearestNeighbor defines. */
  method NearestNeighborLoop(dist: Metric, points: seq<Point>, start: int) returns (r: Result<seq<Point>, RouteError>)
    ensures r == NearestNeighbor(dist, points, start)
  {
    if |points| == 0 {
      return Ok([]);
    }
    var s := PyIndex(start, |points|);
    if s.None? {
      return Err(IndexError);
    }
    var ordered := [points[s.value]];
    var unvisited := Pop(points, s.value);
    while |unvisited| > 0
      invariant |ordered| > 0
      invariant Tour(dist, ordered, unvisited) == Tour(dist, [points[s.value]], Pop(points, s.value))
      decreases |unvisited|
    {
      var current := ordered[|ordered| - 1];
      var nearestIdx := FindNearest(dist, current, unvisited);
      if nearestIdx >= 0 {
        ordered := ordered + [unvisited[nearestIdx]];
        unvisited := Pop(unvisited, nearestIdx);
      } else {
        ordered := ordered + unvisited;
        break;
      }
    }
    return Ok(ordered);
  }
}

=== FILE: tph.dfy ===
/**
 The data the route engine works on: collection points (TPH), the distances
 between them, and Python's list indexing and `list.pop`.
 */
module Tph {
  import opened Wrappers

  /** One collection point, as built from a database row (main.py:12-23). */
  datatype Point = Point(
    id: int,
    nomor: int,
    dept: string,
    divisi: string,
    blok: string,
    lat: real,
    lng: real,
    kode: Option<string>)

  type NonNegReal = x: real | 0.0 <= x

  /**
   A distance as the nearest-neighbour scan sees it: a non-negative number of
   kilometres, or a value that no `<` comparison accepts (a NaN produced by
   the haversine formula, or an exception that reaches the scan's own `try`
   at main.py:146-153; `haversine_distance` itself turns its exceptions into
   the number 999999.9).
   */
  datatype Dist = Km(km: NonNegReal) | Incomparable

  /** The distance function, left abstract (the haversine formula is not modelled). */
  type Metric = (Point, Point) -> Dist

  /** Every pair of points has a comparable distance. */
  ghost predicate Comparable(dist: Metric) {
    forall a, b :: dist(a, b).Km?
  }

  /**
   Python's `seq[i]` index resolution for a list of length `n`: a negative
   index counts from the end; anything outside `-n..n-1` raises IndexError.
   */
  function PyIndex(i: int, n: nat): (r: Option<nat>)
    ensures r.Some? <==> -(n as int) <= i < n
    ensures r.Some? ==> r.value < n
    ensures 0 <= i < n ==> r == Some(i)
    ensures -(n as int) <= i < 0 ==> r == Some(n + i)
  {
    if 0 <= i < n then Some(i)
    else if -(n as int) <= i < 0 then Some(n + i)
    else None
  }

  /** The list left behind by Python's `list.pop(k)`. */
  function Pop<T>(s: seq<T>, k: nat): (r: seq<T>)
    requires k < |s|
    ensures |r| == |s| - 1
    ensures forall i :: 0 <= i < k ==> r[i] == s[i]
    ensures forall i :: k <= i < |r| ==> r[i] == s[i + 1]
    ensures multiset(r) + multiset{s[k]} == multiset(s)
  {
    assert s == s[..k] + [s[k]] + s[k + 1..];
    s[..k] + s[k + 1..]
  }
}

=== FILE: wrappers.dfy ===
/** Failure-carrying datatypes shared by the model. */
module Wrappers {

  /** A value that may be absent (Python's `None`). */
  datatype Option<+T> = None | Some(value: T)

  /** The outcome of an operation that may fail with an error value. */
  datatype Result<+T, +E> = Ok(value: T) | Err(error: E)
}

=== FILE: writes.dfy ===
/**
 The two persistence paths of a full reorder (main.py:167-179): one
 `UPDATE` per point of the tour, numbered from 1 in tour order, writing the
 advisory `display_order` column or the authoritative `nomor` column. The
 database is modelled as a table from row id to the two columns touched.
 */
module Writes {
  import opened Wrappers
  import opened Tph

  datatype Column = DisplayOrder | Nomor

  /** `UPDATE tph SET <column> = value WHERE id = id`. */
  datatype Update = Update(column: Column, value: int, id: int)

  /** The writes of `enumerate(tour, first)`: the k-th point gets `first + k`. */
  function EnumerateFrom(column: Column, tour: seq<Point>, first: int): (w: seq<Update>)
    ensures |w| == |tour|
    ensures forall k :: 0 <= k < |w| ==> w[k].column == column && w[k].id == tour[k].id && w[k].value == first + k
    decreases |tour|
  {
    if |tour| == 0 then []
    else [Update(column, first, tour[0].id)] + EnumerateFrom(column, tour[1..], first + 1)
  }

  /** `update_tph_order`: display order 1..N in tour order. */
  function UpdateTphOrder(tour: seq<Point>): (w: seq<Update>)
    ensures |w| == |tour|
    ensures forall k :: 0 <= k < |w| ==> w[k] == Update(DisplayOrder, k + 1, tour[k].id)
  {
    EnumerateFrom(DisplayOrder, tour, 1)
  }

  /** `update_tph_numbers`: `nomor` 1..N in tour order. */
  function UpdateTphNumbers(tour: seq<Point>): (w: seq<Update>)
    ensures |w| == |tour|
    ensures forall k :: 0 <= k < |w| ==> w[k] == Update(Nomor, k + 1, tour[k].id)
  {
    EnumerateFrom(Nomor, tour, 1)
  }

  /** The columns of a stored row that the writes can touch. */
  datatype Stored = Stored(nomor: int, displayOrder: Option<int>)

  /** The `tph` table, by row id. */
  type Table = map<int, Stored>

  function SetColumn(s: Stored, column: Column, value: int): Stored {
    match column
    case DisplayOrder => s.(displayOrder := Some(value))
    case Nomor => s.(nomor := value)
  }

  /** One `UPDATE ... WHERE id = ...`: a missing id matches no row and changes nothing. */
  function ApplyUpdate(t: Table, u: Update): Table {
    if u.id in t then t[u.id := SetColumn(t[u.id], u.column, u.value)] else t
  }

  /** The writes, executed one after another. */
  function ApplyAll(t: Table, us: seq<Update>): Table
    decreases |us|
  {
    if |us| == 0 then t else ApplyAll(ApplyUpdate(t, us[0]), us[1..])
  }

  ghost predicate DistinctIds(tour: seq<Point>) {
    forall i, j :: 0 <= i < j < |tour| ==> tour[i].id != tour[j].id
  }

  /** The row ids a tour touches. */
  ghost function Ids(tour: seq<Point>): set<int> {
    set k | 0 <= k < |tour| :: tour[k].id
  }

  /** The tail of a tour with distinct ids touches the tour's ids except its head's. */
  lemma IdsOfTail(tour: seq<Point>)
    requires |tour| > 0 && DistinctIds(tour)
    ensures tour[0].id in Ids(tour)
    ensures tour[0].id !in Ids(tour[1..])
    ensures Ids(tour[1..]) <= Ids(tour)
  {
    var rest := tour[1..];
    forall id | id in Ids(rest)
      ensures id in Ids(tour) && id != tour[0].id
    {
      var k :| 0 <= k < |rest| && rest[k].id == id;
      assert tour[k + 1].id == id;
    }
  }

  /**
   Executing the enumeration on a table holding every point of a tour with
   distinct ids: the row of the k-th point has `column` set to `first + k`
   and nothing else changed; every other row is untouched.
   */
  lemma {:induction false} ApplyEnumeration(t: Table, column: Column, tour: seq<Point>, first: int)
    requires DistinctIds(tour)
    requires forall k :: 0 <= k < |tour| ==> tour[k].id in t
    ensures ApplyAll(t, EnumerateFrom(column, tour, first)).Keys == t.Keys
    ensures forall k :: 0 <= k < |tour| ==>
              ApplyAll(t, EnumerateFrom(column, tour, first))[tour[k].id] == SetColumn(t[tour[k].id], column, first + k)
    ensures forall id :: id in t && id !in Ids(tour) ==> ApplyAll(t, EnumerateFrom(column, tour, first))[id] == t[id]
    decreases |tour|
  {
    if |tour| > 0 {
      var head := tour[0].id;
      var rest := tour[1..];
      var t1 := ApplyUpdate(t, Update(column, first, head));
      assert t1 == t[head := SetColumn(t[head], column, first)];
      var t' := ApplyAll(t1, EnumerateFrom(column, rest, first + 1));
      ApplyAllCons(t, Update(column, first, head), EnumerateFrom(column, rest, first + 1));
      assert ApplyAll(t, EnumerateFrom(column, tour, first)) == t';
      assert DistinctIds(rest) by {
        forall i, j | 0 <= i < j < |rest|
          ensures rest[i].id != rest[j].id
        {
          assert rest[i] == tour[i + 1] && rest[j] == tour[j + 1];
        }
      }
      ApplyEnumeration(t1, column, rest, first + 1);
      IdsOfTail(tour);
      forall k | 0 <= k < |tour|
        ensures t'[tour[k].id] == SetColumn(t[tour[k].id], column, first + k)
      {
        if k > 0 {
          assert rest[k - 1] == tour[k];
          assert tour[k].id != head;
        }
      }
    }
  }

  lemma ApplyAllCons(t: Table, u: Update, us: seq<Update>)
    ensures ApplyAll(t, [u] + us) == ApplyAll(ApplyUpdate(t, u), us)
  {
    assert ([u] + us)[1..] == us;
  }

  /**
   After `update_tph_numbers`, the k-th point of the tour has number k + 1,
   its display order is unchanged, and rows outside the tour are untouched.
   */
  lemma RenumberEffect(t: Table, tour: seq<Point>)
    requires DistinctIds(tour)
    requires forall k :: 0 <= k < |tour| ==> tour[k].id in t
    ensures ApplyAll(t, UpdateTphNumbers(tour)).Keys == t.Keys
    ensures forall k :: 0 <= k < |tour| ==>
              && ApplyAll(t, UpdateTphNumbers(tour))[tour[k].id].nomor == k + 1
              && ApplyAll(t, UpdateTphNumbers(tour))[tour[k].id].displayOrder == t[tour[k].id].displayOrder
    ensures forall id :: id in t && id !in Ids(tour) ==> ApplyAll(t, UpdateTphNumbers(tour))[id] == t[id]
  {
    ApplyEnumeration(t, Nomor, tour, 1);
  }

  /**
   After `update_tph_order`, the k-th point of the tour has display order
   k + 1, its number is unchanged, and rows outside the tour are untouched.
   */
  lemma DisplayOrderEffect(t: Table, tour: seq<Point>)
    requires DistinctIds(tour)
    requires forall k :: 0 <= k < |tour| ==> tour[k].id in t
    ensures ApplyAll(t, UpdateTphOrder(tour)).Keys == t.Keys
    ensures forall k :: 0 <= k < |tour| ==>
              && ApplyAll(t, UpdateTphOrder(tour))[tour[k].id].displayOrder == Some(k + 1)
              && ApplyAll(t, UpdateTphOrder(tour))[tour[k].id].nomor == t[tour[k].id].nomor
    ensures forall id :: id in t && id !in Ids(tour) ==> ApplyAll(t, UpdateTphOrder(tour))[id] == t[id]
  {
    ApplyEnumeration(t, DisplayOrder, tour, 1);
  }
}
